=== FILE: README.md ===
# Monte-Carlo engines of the Chinese Checkers players

This project models the three Monte-Carlo move-choosing engines of a Chinese
Checkers program in Dafny and proves properties of the model:

- `MCTSPlayer`, the UCT tree search;
- `GRAVEPlayer`, Generalized Rapid Action Value Estimation;
- `PPAPlayer`, Playout Policy Adaptation.

The model covers the bookkeeping of their transposition tables, the selection
rules, the rollouts, the backpropagation, GRAVE's all-moves-as-first (AMAF)
statistics, PPA's learnt move policy, and the move code shared by GRAVE and
PPA.

## Modules

- `GameModel` holds the game as the engines consume it. The game is a value
  made of functions: the legal moves, the forward moves, the successor state,
  the end test, the utility and the player to move.
  - `ValidGame` states what the engines rely on: utilities lie in [-1, 1], the
    player to move is 1 or 2, and a state that is not over has a move.
  - The math library (`log`, `sqrt`, `exp`) is a value of uninterpreted
    functions. `ValidNumerics` states what is assumed of it.
  - This module also holds the rollout predicates and the `Failure`, `Result`
    and `Option` types.
- `Stats` holds the selection loop shared by all three engines and the final
  "first most visited" choice, both proved against predicates. It also holds
  the sums and bounds behind the record invariants.
- `MoveCode` holds `tocode`. It proves that the code of an on-board move lies
  in `[0, 3 * L^4)` and that two on-board moves with the same code are the
  same move.
- `Mcts` holds the plain table (a class whose record map is updated in place),
  the forward rollout, the UCT score, backpropagation, and the player's
  `search` and `get_action`. The PPA engine reuses the same table, score and
  backpropagation.
- `Grave` holds the AMAF table with `addAMAF`, `look` and `updateAMAF`, the
  GRAVE score, and the player with `forward_playoutAMAF`, `searchGRAVE` and
  `get_action`.
- `Ppa` holds the `Policy` class with `put` and `deepcopy`, `get` as the
  function `Lookup` on the policy's weights, the roulette-wheel rollout,
  `adapt` with its specification `AdaptWalk`, and the player's `search` and
  `get_action`.

## Modelling choices

- Table records are values in a `map` field of the table object. A descent
  writes its mark into the map, runs the deeper levels, then reads the record
  again. This is the same as Python's in-place update of a shared list,
  because no record is replaced during a descent.
- GRAVE's reference record `tr` is the key of that record. It is read when the
  moves are scored, so it sees the marks written by the levels above.
- `random.choice` and `random.random` are nondeterministic choices.
- The Python recursion limit is a `depth` bound. Reaching it gives
  `Err(RecursionLimit)`.
- A rollout that never ends is cut off by a `steps` bound and gives
  `Err(EndlessPlayout)`.
- Python exceptions are error results:
  - `Err(NotSubscriptable)`: a bare number indexed with `[0]`;
  - `Err(NoRootEntry)`: `None` indexed;
  - `Err(NoLegalMoves)`: `moves[0]` on an empty list.
- The playout counts in the lists are Python floats that only ever hold whole
  numbers; they are modelled as `nat`. Win sums are `real`.

## Source behaviour modelled as written

Where the design description and the code disagree, the model follows the
code.

- GRAVE writes its "taken in this descent" mark into slot 3 of the record
  (`nplayoutsAMAF`) at the move index. It resets that slot to 0 after the
  descent. It never raises the `visited` slot 5. So a taken move is not
  excluded, and an AMAF count indexed by code can be zeroed while its win sum
  stays.
- GRAVE's `played` list is shared by the whole descent. The list folded into
  a node's AMAF statistics therefore also holds the codes chosen above that
  node. When a descent ends at an end state, the list that comes back is empty
  and nothing is folded at any level.
- PPA's `search` returns a bare number at an end state. A parent that indexes
  it fails with a `TypeError`. This happens after the parent has cleared its
  mark and raised its counts, and before it updates the win sum. The marks of
  the levels above stay raised. At the root, `get_action` fails the same way.
- PPA's `adapt` replays the rollout's moves, played from a leaf, from the root
  state, with the engine's player to move. The winner is always player 1. The
  weights come from the policy as it was before the call, and the adapted copy
  replaces the policy only at the end.
- GRAVE's `get_action` stores a fresh root record before the descents. With
  `nb = 0` it therefore returns the first legal move. MCTS and PPA instead fail
  with `Err(NoRootEntry)` when the root has no record.

## Model

| member | source | states |
|---|---|---|
| GameModel.Reward | src/players/MCTSPlayer.py:63 | the value `(utility + 1) / 2` lies in [0, 1] and is 1 exactly when the utility is 1 |
| GameModel.Candidates | src/players/MCTSPlayer.py:57-60 | a rollout draws from the forward moves, or from all legal moves when there is no forward move; a state that is not over always offers a candidate |
| GameModel.RolloutStep | src/players/MCTSPlayer.py:56-62 | playing one more candidate move from a state that is not over extends a rollout prefix, and the state reached is the successor |
| GameModel.ReplayFirst | src/players/MCTSPlayer.py:93-97 | replaying a move list that starts with `m` from a state is replaying the rest from the state `m` leads to, which ties a descent's path to the child it descends into |
| GameModel.PathStatesCons | src/players/MCTSPlayer.py:93-97 | the states a path that starts with `m` passes through are the start state followed by the states the rest passes through from the state `m` leads to |
| GameModel.RecordedCons | src/players/MCTSPlayer.py:66-69 | a state that is not over and has a record, placed in front of states that are all not over and recorded, keeps them all not over and recorded |
| Stats.SelectFirstBest | src/players/MCTSPlayer.py:70-89 | the selection loop (best value starting at 0, strict `>`) returns the first index of the greatest score when some score is positive, and index 0 otherwise |
| Stats.FirstTopSelected | src/players/MCTSPlayer.py:87-89 | if no score exceeds a positive top and index k is the first to reach it, the selection returns k |
| Stats.MostVisited | src/players/MCTSPlayer.py:111-118 | the final choice returns the first move whose playout count no other move exceeds |
| Stats.SumNatIncrement | src/players/MCTSPlayer.py:99-100 | raising one move's playout count by one raises the sum of the counts by one, so `total` keeps equal to that sum |
| Stats.SumNatBound | src/players/MCTSPlayer.py:75-76 | a move's playout count `ni` never exceeds the node count `n` |
| Stats.SumNatZeros | src/players/MCTSPlayer.py:23-27 | a fresh record's zero counts sum to its zero total |
| Stats.RatioInUnit | src/players/MCTSPlayer.py:82 | a win rate `wi / ni` with `0 <= wi <= ni` lies in [0, 1] |
| MoveCode.ToCode | src/players/GRAVEPlayer.py:41-46 | the step kind of a move (1, 2 or 3) is the code's remainder modulo 3, plus one |
| MoveCode.CodesCons | src/players/GRAVEPlayer.py:122-123 | the codes of a move list that starts with `m` are the code of `m` followed by the codes of the rest, as `played` grows one level at a time |
| MoveCode.CodeInRange | src/players/GRAVEPlayer.py:41-46 | an on-board move's code lies in `[0, BoardLength**4 * 3)`, the length of the AMAF lists |
| MoveCode.CodeInjective | src/players/PPAPlayer.py:36-38 | two on-board moves with the same code have the same step kind, source and destination, so the code identifies the move pattern for both GRAVE and PPA |
| Mcts.FreshEntry | src/players/MCTSPlayer.py:23-27 | the record `add` stores has lists of the table's capacity, zero counts and sums, no flag, and satisfies the record invariant |
| Mcts.ExplorationTermDefined | src/players/MCTSPlayer.py:85 | for an explored move, `1 <= ni <= n` and `log(n) / ni` is not negative |
| Mcts.ExploredScoreBelowSentinel | src/players/MCTSPlayer.py:79-85 | an explored move that is not taken scores in [0, 1000000.0) |
| Mcts.UctScoreBands | src/players/MCTSPlayer.py:74-85 | the UCT score is `-1000000.0` exactly for a move taken in this descent, `1000000.0` exactly for another move never played, and in [0, 1000000.0) for every other move |
| Mcts.UnexploredChosenFirst | src/players/MCTSPlayer.py:73-89 | the first move never played and not taken is the one selected |
| Mcts.Backprop | src/players/MCTSPlayer.py:98-101 | backpropagation clears the move's flag and adds one to the node count, one to the move's playouts and the result to its win sum; other slots are kept, and so is the record invariant |
| Mcts.NoneVisitedKept | src/players/MCTSPlayer.py:96-98 | completed descents leave every flag down when all flags were down before |
| Mcts.DescentStep | src/players/MCTSPlayer.py:96-101 | mark, deeper descent, then backpropagation keep every record valid, grow the table by at most one fresh record, and raise no flag |
| Mcts.MarkedCounts | src/players/MCTSPlayer.py:96 | raising a flag changes no count, so a table whose counts grew from the marked table grew from the unmarked one |
| Mcts.BackpropCounts | src/players/MCTSPlayer.py:98-101 | backpropagation lowers no node count and no playout count of any record |
| Mcts.CountedVisit | src/players/MCTSPlayer.py:96-101 | a completed descent through a record raises its node count by at least one over the count before the descent |
| Mcts.CountedLevel | src/players/MCTSPlayer.py:96-101 | if the deeper levels raised the node count of every state they passed through, marking, descending and backpropagating at `s` raises the count of `s` and of all those states too |
| Mcts.TranspositionTable.constructor | src/players/MCTSPlayer.py:19-21 | a new table is empty and valid |
| Mcts.TranspositionTable.Add | src/players/MCTSPlayer.py:23-27 | `add` stores a fresh record under the state's hash, replacing any record there; `look` then finds that record, and finds what it found before for every state with another hash |
| Mcts.ForwardPlayout | src/players/MCTSPlayer.py:54-63 | the moves played form a complete rollout of candidate moves, and the value is the end utility for the player to move at the start, mapped to [0, 1] |
| Mcts.MCTSPlayer.constructor | src/players/MCTSPlayer.py:39-43 | a new player has the given budget and an empty table of the given capacity |
| Mcts.MCTSPlayer.Search | src/players/MCTSPlayer.py:65-105 | the table stays valid, no node or playout count goes down, and only the state `leaf` where the descent stopped can gain a record, a fresh one; `leaf` is the state the ghost `path` of moves leads to from the start; every state the path passes through before `leaf` was not over and had a record, and on success each such record's node count went up; when `leaf` is not an end state it had no record and now holds a fresh one; a value is the end utility, in [0, 1], of a complete rollout from `leaf`; an end state returns its value for the player to move, changes nothing and has an empty path; a state without a record gets a fresh one and is `leaf`; a state with a record behaves as `Descend` states; completed descents only clear flags |
| Mcts.MCTSPlayer.Descend | src/players/MCTSPlayer.py:69-102 | at a state with a record the move chosen is the first best UCT score; the path starts with that move, and every state it passes through before `leaf` was not over and had a record whose node count went up on success; the move is marked taken while the deeper levels run, whose table (`below`) grows from the marked one without lowering a count; a value that comes back is backpropagated through the chosen move; a failure below leaves the table as the deeper levels left it |
| Mcts.MCTSPlayer.Commit | src/players/MCTSPlayer.py:98-101 | the node's record becomes its backpropagation through the chosen move, and the table still grows from the one before the descent, clearing flags only and lowering no count |
| Mcts.MCTSPlayer.GetAction | src/players/MCTSPlayer.py:107-120 | a successful call made `nb` descents, each counting one visit of a root that is not an end state: its node count rose by at least `nb` (or reached `nb - 1` when the root had no record); the engine returns the first root move with the most playouts; it fails when the root has no move, or when `nb = 0` and the root had no record |
| Grave.FreshAmafEntry | src/players/GRAVEPlayer.py:24-30 | the record `addAMAF` stores has all counts and sums zero and satisfies the AMAF record invariant |
| Grave.Beta | src/players/GRAVEPlayer.py:106 | with AMAF evidence, `beta = nAMAF / (ni + nAMAF + 1e-5 * ni * nAMAF)` lies in (0, 1] |
| Grave.BlendInUnit | src/players/GRAVEPlayer.py:115 | `(1 - beta) * Q + beta * AMAF` lies in [0, 1] when Q, AMAF and beta do |
| Grave.GraveScoreInUnit | src/players/GRAVEPlayer.py:103-115 | with AMAF evidence for the code (and an AMAF rate of at most 1) the blended score lies in [0, 1], flipped or not |
| Grave.GraveScoreBands | src/players/GRAVEPlayer.py:95-115 | with an AMAF rate of at most 1, the GRAVE score is `-1000000.0` exactly for a move flagged visited, `1000000.0` exactly for another move whose code has no AMAF evidence in the reference record, and in [0, 1] for every other move |
| Grave.UnseenCodeChosenFirst | src/players/GRAVEPlayer.py:94-120 | the first move whose code has no AMAF evidence in the reference record keeps the sentinel and is selected |
| Grave.MarkedAmafCounts | src/players/GRAVEPlayer.py:124 | writing the descent mark changes no node or playout count, so a table whose counts grew from the marked table grew from the unmarked one |
| Grave.BackupCounts | src/players/GRAVEPlayer.py:126-131 | backpropagation and the AMAF fold lower no node count and no playout count, and raise the node's count by one |
| Grave.CountedVisitAmaf | src/players/GRAVEPlayer.py:124-131 | a completed descent through a record raises its node count by at least one over the count before the descent |
| Grave.CountedLevelAmaf | src/players/GRAVEPlayer.py:124-131 | if the deeper levels raised the node count of every state they passed through, marking, descending, backpropagating and folding at `s` raises the count of `s` and of all those states too |
| Grave.BackpropGrave | src/players/GRAVEPlayer.py:126-129 | the AMAF count at the move index is reset to 0; the node count and the move's playouts go up by one and its win sum by the result; the invariant and the other slots are kept |
| Grave.DescentStep | src/players/GRAVEPlayer.py:124-131 | mark, deeper descent, backpropagation and fold keep every record valid and grow the table by at most one fresh record |
| Grave.TranspositionTableAmaf.constructor | src/players/GRAVEPlayer.py:18-22 | a new table is empty; its AMAF lists have length `BoardLength**4 * 3` |
| Grave.TranspositionTableAmaf.AddAmaf | src/players/GRAVEPlayer.py:24-30 | `addAMAF` stores a fresh record under the state's hash; `look` then finds that record, and finds what it found before for every state with another hash |
| Grave.TranspositionTableAmaf.UpdateAmaf | src/players/GRAVEPlayer.py:32-36 | every distinct code of `played` gains exactly one AMAF playout and `res` AMAF wins, however often it occurs; every other code and slot is unchanged |
| Grave.GRAVEPlayer.constructor | src/players/GRAVEPlayer.py:54-60 | a new player has the given budget, player, threshold and an empty AMAF table |
| Grave.GRAVEPlayer.SelectGrave | src/players/GRAVEPlayer.py:90-120 | the selection returns the first best-scoring move under the GRAVE score, and its code fits the AMAF lists |
| Grave.GRAVEPlayer.Backup | src/players/GRAVEPlayer.py:126-131 | backpropagation then fold: counts and win sum of the move go up; the AMAF count of each code is its old value (0 at the move index) plus one if the code was played; the invariant holds |
| Grave.GRAVEPlayer.ForwardPlayoutAmaf | src/players/GRAVEPlayer.py:70-80 | the moves form a complete rollout, the value is the end utility for the player to move at the start, and the list returned is `played` extended with the codes of the moves, in order |
| Grave.GRAVEPlayer.MarkChoice | src/players/GRAVEPlayer.py:86-124 | the reference becomes the node's own record when its count exceeds `minVisit` and is inherited otherwise; the move chosen is the first best GRAVE score against that reference; the table afterwards differs only by the mark in the AMAF count at the move index, so its keys are unchanged |
| Grave.GRAVEPlayer.Commit | src/players/GRAVEPlayer.py:126-131 | the node's record becomes the fold of the returned codes into its backpropagated record, the keys stay, and the table still grows from the one before the descent by at most fresh records, lowering no count |
| Grave.GRAVEPlayer.Descend | src/players/GRAVEPlayer.py:86-132 | at a state with a record: the reference and move are chosen as `MarkChoice` states, the path starts with the chosen move, every state it passes through before `leaf` was not over and had a record whose node count went up on success, the deeper levels see the table with the mark and lower no count, a code list that comes back is empty or extends `played` with the chosen move's code, and the record afterwards is the fold of that list into the backpropagated record; the value and list are those `SearchGrave` states for the leaf reached; a failure below leaves the table as the deeper levels left it |
| Grave.GRAVEPlayer.SearchGrave | src/players/GRAVEPlayer.py:82-135 | the table stays valid, no node or playout count goes down, and only the state `leaf` where the descent stopped can gain a record; `leaf` is the state the ghost `path` leads to; every state the path passes through before `leaf` was not over and had a record, and on success each such record's node count went up; when `leaf` is not an end state it had no record and holds a fresh one; when `leaf` is an end state the value is its utility for the engine's player and the list is empty; otherwise the value is the end utility of a complete rollout from `leaf` for the player to move there, and the list is `played`, then the codes of `path`, then those of the rollout; an end state changes nothing; a state without a record gets a fresh one and is `leaf`; a state with a record behaves as `Descend` states |
| Grave.GRAVEPlayer.OutcomeStep | src/players/GRAVEPlayer.py:121-132 | the value and code list that come back from the child, with the chosen code appended to `played`, are the outcome of the descent from the parent along the path that starts with the chosen move |
| Grave.GRAVEPlayer.GetAction | src/players/GRAVEPlayer.py:137-152 | the table the descents start from (`start`) is the old one with a fresh root record, replacing any record there; on success the ghost `ds` are exactly `nb` descents in order, each starting from the table the previous one left and ending in the final table, each a completed `searchGRAVE` from the root with the root record as first reference (`RootStep`); an end-state root keeps the fresh record; the fresh root record's node count reached at least `nb` when the root is not an end state; the engine returns the first root move with the most playouts, which is the first legal move when `nb = 0` |
| Grave.GRAVEPlayer.RootDescentsStep | src/players/GRAVEPlayer.py:140-142 | one more completed descent from the root, started from the table the previous descents left, extends the chain of descents to the table it leaves |
| Grave.GRAVEPlayer.MostPlayedRootMove | src/players/GRAVEPlayer.py:143-152 | the move returned is the first root move with the most playouts; the call fails exactly when the root has no move; at a fresh root record it is the first legal move |
| Ppa.LookupAdded | src/players/PPAPlayer.py:44-53 | `get` after `put`: the code put to returns its old weight (0 when absent) plus the value, and every other code returns what it returned before, default included |
| Ppa.AddedKeys | src/players/PPAPlayer.py:44-48 | `put` gives its code a weight and removes none |
| Ppa.AddedTwice | src/players/PPAPlayer.py:44-48 | two puts on one code equal one put of their sum |
| Ppa.AddedCommute | src/players/PPAPlayer.py:44-48 | puts on two different codes commute |
| Ppa.Policy.constructor | src/players/PPAPlayer.py:41-42 | a new policy is empty |
| Ppa.Policy.Copy | src/players/PPAPlayer.py:92 | the deep copy holds the same weights |
| Ppa.Policy.Put | src/players/PPAPlayer.py:44-48 | `put` in place leaves the policy equal to `Added` of its old weights |
| Ppa.Weights | src/players/PPAPlayer.py:77 | each move's weight is `exp` of its code's policy weight, or of `1 / len(moves)` when the code has none |
| Ppa.WeightsPositive | src/players/PPAPlayer.py:77 | with a positive `exp` every weight is positive |
| Ppa.PrefixMonotone | src/players/PPAPlayer.py:81-85 | running sums of positive weights grow strictly |
| Ppa.NormaliserPositive | src/players/PPAPlayer.py:75-77 | the normaliser `z` of a non-empty move list is positive |
| Ppa.Normaliser | src/players/PPAPlayer.py:75-77 | the loop returns the sum of `exp(get(code, 1 / len(moves)))` over the moves |
| Ppa.Roulette | src/players/PPAPlayer.py:79-86 | the wheel stops at the first move whose running sum reaches `stop`, and a move is always found |
| Ppa.RoulettePicksSlice | src/players/PPAPlayer.py:78-86 | with positive weights, the move taken is the unique move whose slice of the wheel holds `stop` |
| Ppa.ScaledStop | src/players/PPAPlayer.py:78 | `random() * z` lies in [0, z) |
| Ppa.SharePenalty | src/players/PPAPlayer.py:102-105 | the value the loop puts, `- alpha * exp(weight) / z`, is the move's penalty, and `z` is not 0 |
| Ppa.Penalties | src/players/PPAPlayer.py:104-105 | one penalty per legal move, each `- alpha * exp(weight) / z` |
| Ppa.PenaltiesSumToAlpha | src/players/PPAPlayer.py:101-105 | the penalties of one winner step sum to `-alpha`, balancing the `alpha` put on the played move |
| Ppa.ChargedUntouched | src/players/PPAPlayer.py:104-105 | a code that none of the puts names keeps its weight, or its absence |
| Ppa.ChargedOnce | src/players/PPAPlayer.py:104-105 | with pairwise different codes, each code put to gains exactly its value |
| Ppa.PenalisedIsCharged | src/players/PPAPlayer.py:101-105 | the penalty loop's puts are the puts of the legal moves' codes with their penalties, in order |
| Ppa.PenalisedKeys | src/players/PPAPlayer.py:104-105 | the penalty loop removes no code from the policy |
| Ppa.PenalisedUntouched | src/players/PPAPlayer.py:104-105 | a code of no legal move keeps its weight, or its absence |
| Ppa.PenalisedCharged | src/players/PPAPlayer.py:104-105 | when codes are distinct, each legal move's code is charged exactly `alpha * exp(weight) / z` |
| Ppa.PenaltyBelowAlpha | src/players/PPAPlayer.py:101-105 | with two or more legal moves, each move's penalty is smaller than `alpha` |
| Ppa.WinnerStep | src/players/PPAPlayer.py:96-105 | a winner step removes no code and gives the played move's code a weight |
| Ppa.WinnerStepRaisesPlayed | src/players/PPAPlayer.py:96-105 | a winner step strictly raises the weight of the move played, when it is one of two or more legal moves with distinct codes |
| Ppa.AdaptWalk | src/players/PPAPlayer.py:95-107 | adaptation only adds codes to the policy and never removes one |
| Ppa.AdaptWalkCovers | src/players/PPAPlayer.py:95-107 | after adaptation, the code of every move the winner played (players alternating from `player`) has a weight |
| Ppa.AdaptWalkIdle | src/players/PPAPlayer.py:95-107 | if the winner moves at no step of the walk (players alternating), adaptation leaves the policy unchanged |
| Ppa.AdaptAll | src/players/PPAPlayer.py:153-157 | adapting on a series of rollouts removes no code, and adapting on none leaves the policy as it was |
| Ppa.Penalise | src/players/PPAPlayer.py:101-105 | the penalty loop leaves the copy equal to the specification `Penalised`, with the weights of the old policy |
| Ppa.Interrupted | src/players/PPAPlayer.py:142-146 | the partial update before the failure on a bare value clears the flag and raises the counts, leaves the win sum, and keeps the invariant |
| Ppa.InterruptedStep | src/players/PPAPlayer.py:141-146 | after an end state right below, the partially updated table stays valid with the same keys and lowers no count |
| Ppa.WonRollouts | src/players/PPAPlayer.py:153-157 | the rollouts adapted to are at most as many as the descents |
| Ppa.WonRolloutsExactly | src/players/PPAPlayer.py:153-157 | every played-out descent of value 1 has its rollout among those adapted to, and none is adapted to when no descent has value 1 |
| Ppa.RunsFromStep | src/players/PPAPlayer.py:153-157 | one more descent from the root, along a path to a state from which a complete rollout was played and valued, extends the record of where every run came from |
| Ppa.RoundsStep | src/players/PPAPlayer.py:153-157 | after one more played-out round, the adapted rollouts gain it, with its start state, exactly when it was won, and the policy is then adapted to it; every adapted rollout stays a complete rollout won by the player to move at its start |
| Ppa.PPAPlayer.constructor | src/players/PPAPlayer.py:60-66 | a new player has an empty table and an empty policy |
| Ppa.PPAPlayer.DrawMove | src/players/PPAPlayer.py:75-86 | one draw returns a move index that the roulette wheel takes for some `stop` in [0, z) |
| Ppa.PPAPlayer.Playout | src/players/PPAPlayer.py:68-89 | the moves returned form a complete rollout of candidate moves, and the value is the end utility for the player to move at the start, mapped to [0, 1] |
| Ppa.PPAPlayer.Adapt | src/players/PPAPlayer.py:91-108 | the new policy is `AdaptWalk` of the old one: the walk from the given state with the winner's steps adapted, using the old weights |
| Ppa.PPAPlayer.Descend | src/players/PPAPlayer.py:113-147 | at a state with a record the move chosen is the first best UCT score; the path starts with it, and every state it passes through before `leaf` was not over and had a record whose node count went up on success; it is marked taken while the deeper levels run, which lower no count; a rollout value that comes back is backpropagated through it; an end state right below makes the descent fail with the partial update `Interrupted` of this level's record, while the levels above keep their marks raised; any other failure leaves the table as the deeper levels left it |
| Ppa.PPAPlayer.Commit | src/players/PPAPlayer.py:143-146 | the node's record becomes its backpropagation through the chosen move, and the table still grows from the one before the descent, clearing flags only and lowering no count |
| Ppa.PPAPlayer.Search | src/players/PPAPlayer.py:110-150 | the table stays valid, no count goes down, and only the state `leaf` where the descent stopped can gain a record, a fresh one; `leaf` is the state the ghost `path` leads to; every state the path passes through before `leaf` was not over and had a record, and on success each such record's node count went up; when `leaf` is not an end state it had no record and now holds a fresh one; a bare value comes only from an end state, which changes nothing and has an empty path; a played-out value is the end utility of a complete rollout from `leaf`; a new state gets a fresh record and is `leaf`; a state with a record behaves as `Descend` states; completed descents only clear flags |
| Ppa.PPAPlayer.GetAction | src/players/PPAPlayer.py:152-167 | the ghost `runs` are the descents' values in order, exactly `nb` of them on success; the `j`-th followed `runPaths[j]` from the root to `runLeaves[j]`, and its value is the end utility of a complete rollout from there (`RunsFrom`); the policy afterwards is the old one adapted, in order, to exactly the won rollouts among `runs` (`WonRollouts`), each a complete rollout ending with utility 1 for its first player; every successful descent counted one visit of a root that is not an end state, so its node count rose by at least `nb` (or reached `nb - 1` when it had no record); the engine returns the first root move with the most playouts, and fails when the root has no move, or when `nb = 0` and the root had no record |
| Ppa.PPAPlayer.Round | src/players/PPAPlayer.py:154-157 | one descent from the root, along the ghost `path` to `leaf`, whose value must be a played-out rollout from `leaf` (a bare value fails); the policy is adapted to that rollout exactly when its value is 1 and is unchanged otherwise; a successful round counts one more visit of a root that is not an end state |
| Ppa.PPAPlayer.MostPlayedRootMove | src/players/PPAPlayer.py:158-167 | the move returned is the first root move with the most playouts; a root without moves or without a record fails |

## Left out

- `playout` (src/players/MCTSPlayer.py:45-51) and `playoutAMAF` (src/players/GRAVEPlayer.py:62-68): neither engine calls them; the forward rollouts are modelled.
- The `_moves_count` counter and the `_player_type` label: they belong to the `Player` base class. The `Player` base class is not part of this model.
- The game rules (`ChineseCheckers`, `State`, `Action`): these sources are not part of this model. The rules are a parameter restricted by `ValidGame`, and `hash(state)` is a parameter of each table.
- The driver `src/GameController.py` and the tournament scripts are not modelled. `create_player` (src/GameController.py:49) passes the player number where `MCTSPlayer` expects `MaxLegalMoves`, so that engine's lists hold one or two slots.
- Mcts.MCTSPlayer.Search: requires every state to have at most `MaxLegalMoves` moves (`FitsCapacity`); the IndexError of a longer move list is not modelled. The same holds for the other two engines' `Search` and `GetAction`.
- Grave.GRAVEPlayer.SearchGrave: also requires `MaxLegalMoves <= BoardLength**4 * 3` (true for the defaults 60 and 7), because the mark writes into an AMAF list at a move index.
- Grave.GRAVEPlayer.SearchGrave: requires every move to be on the board (`GameOnBoard`). An off-board move's code can be at least `BoardLength**4 * 3`, where the source raises IndexError when it reads the AMAF lists; a negative code reads another code's slot through Python's negative indexing. Neither is modelled, for `Descend`, `SelectGrave` and `GetAction` either.
- Grave.GRAVEPlayer.GetAction: the chain of descents `ds` is stated for a successful call only; after a failed descent the final table is tied to the earlier ones only by the key clause.
- Grave.UnseenCodeChosenFirst: assumes every AMAF rate is at most 1. The source does not keep this, because resetting slot 3 at the move index can zero an AMAF count whose win sum stays.
- Grave.GraveScoreInUnit: assumes the same bound on AMAF rates.
- Grave.GraveScoreBands: assumes the same bound on AMAF rates.
- Floating point: counts, sums, `beta` and the policy weights are exact reals. Rounding is not modelled, nor is the float-versus-integer distinction of `1/len(moves)`.
- `log`, `sqrt` and `exp` are uninterpreted. `ValidNumerics` assumes `exp` is positive, `log` is not negative from 1 on, and the UCT bonus of an explored move stays below 1000000.0 - 1.
- The probability distributions of `random.choice` and `random.random` are not modelled beyond the roulette wheel's slices. The model only says which moves can be drawn.
- The `depth` and `steps` bounds are model artefacts. They add the failures `RecursionLimit` and `EndlessPlayout`, where the source would raise RecursionError or loop forever.

=== FILE: gamemodel.dfy ===
/** The abstract two-player game the three Monte-Carlo engines search, the
    numeric primitives they call, the rollout they simulate and the outcome
    types they return. */
module GameModel {

  /** A move of the board game. The engines only look at its step kind and
      at its source and destination cells (to compute a move code). */
  datatype Action = Action(stepType: int, src: (int, int), dest: (int, int))

  /** The game rules as the engines consume them: the legal moves, the
      "forward" (progressing) moves, the successor state, the end test, the
      utility of a state for a player and the player to move. */
  datatype Game<!S> = Game(
    actions: S -> seq<Action>,
    forwardActions: S -> seq<Action>,
    result: (S, Action) -> S,
    terminal: S -> bool,
    utility: (S, int) -> real,
    toMove: S -> int)

  /** What the engines rely on from the rules: utilities lie in [-1, 1], the
      player to move is 1 or 2, and a state that is not over has a move. */
  ghost predicate ValidGame<S(!new)>(g: Game<S>)
  {
    && (forall s, p :: -1.0 <= g.utility(s, p) <= 1.0)
    && (forall s :: g.toMove(s) == 1 || g.toMove(s) == 2)
    && (forall s :: !g.terminal(s) ==> |g.actions(s)| > 0)
  }

  /** Every state has at most `cap` legal moves, so a move index always fits
      the fixed-size per-move lists of a table entry. */
  ghost predicate FitsCapacity<S(!new)>(g: Game<S>, cap: nat)
  {
    forall s :: |g.actions(s)| <= cap
  }

  /** The value a search reports for an end state: the utility for player
      `p`, mapped from [-1, 1] to [0, 1]. */
  function Reward<S(!new)>(g: Game<S>, s: S, p: int): (r: real)
    requires ValidGame(g)
    ensures 0.0 <= r <= 1.0
    ensures r == 1.0 <==> g.utility(s, p) == 1.0
  {
    (g.utility(s, p) + 1.0) / 2.0
  }

  /** The moves a rollout draws from: the forward moves, or every legal move
      when there is no forward move. */
  function Candidates<S(!new)>(g: Game<S>, s: S): (ms: seq<Action>)
    requires ValidGame(g)
    ensures !g.terminal(s) ==> |ms| > 0
    ensures |g.forwardActions(s)| == 0 ==> ms == g.actions(s)
  {
    if |g.forwardActions(s)| > 0 then g.forwardActions(s) else g.actions(s)
  }

  /** The state reached from `s` by playing `ms` in order. */
  function Replay<S>(g: Game<S>, s: S, ms: seq<Action>): S
    decreases |ms|
  {
    if ms == [] then s else g.result(Replay(g, s, ms[..|ms| - 1]), ms[|ms| - 1])
  }

  /** Playing `m` and then `ms` from `s` is playing `ms` from the successor
      of `s` by `m`. */
  lemma {:induction false} ReplayFirst<S>(g: Game<S>, s: S, m: Action, ms: seq<Action>)
    ensures Replay(g, s, [m] + ms) == Replay(g, g.result(s, m), ms)
    decreases |ms|
  {
    var all := [m] + ms;
    if ms == [] {
      assert all[..0] == [];
    } else {
      assert all[..|all| - 1] == [m] + ms[..|ms| - 1];
      ReplayFirst(g, s, m, ms[..|ms| - 1]);
    }
  }

  /** The states a descent along `path` from `s` passes through before it
      stops: `s` itself and every state a proper prefix of `path` reaches. */
  function PathStates<S>(g: Game<S>, s: S, path: seq<Action>): seq<S>
  {
    seq(|path|, i requires 0 <= i < |path| => Replay(g, s, path[..i]))
  }

  /** A descent that starts with the move `m` passes through `s`, then
      through the states the rest of it passes through from the successor. */
  lemma PathStatesCons<S>(g: Game<S>, s: S, m: Action, path: seq<Action>)
    ensures PathStates(g, s, [m] + path) == [s] + PathStates(g, g.result(s, m), path)
  {
    var all := [m] + path;
    var us, us' := PathStates(g, s, all), PathStates(g, g.result(s, m), path);
    assert us[0] == s by {
      assert all[..0] == [];
    }
    forall i | 1 <= i < |all|
      ensures us[i] == us'[i - 1]
    {
      assert all[..i] == [m] + path[..i - 1];
      ReplayFirst(g, s, m, path[..i - 1]);
    }
  }

  /** Every state in `us` is not over and has a record, under `hash`, among
      `keys`. */
  ghost predicate AllRecorded<S>(g: Game<S>, hash: S -> int, keys: set<int>, us: seq<S>)
  {
    forall i :: 0 <= i < |us| ==> !g.terminal(us[i]) && hash(us[i]) in keys
  }

  /** A state that is not over and has a record can head a list of such
      states. */
  lemma RecordedCons<S>(g: Game<S>, hash: S -> int, keys: set<int>, s: S, us: seq<S>)
    requires !g.terminal(s) && hash(s) in keys && AllRecorded(g, hash, keys, us)
    ensures AllRecorded(g, hash, keys, [s] + us)
  {
    forall i | 1 <= i < |us| + 1
      ensures !g.terminal(([s] + us)[i]) && hash(([s] + us)[i]) in keys
    {
      assert ([s] + us)[i] == us[i - 1];
    }
  }

  /** Every move of `ms` was drawn from the candidates of a state that was
      not yet over. */
  ghost predicate RolloutPrefix<S(!new)>(g: Game<S>, s: S, ms: seq<Action>)
    requires ValidGame(g)
  {
    forall i :: 0 <= i < |ms| ==>
      !g.terminal(Replay(g, s, ms[..i])) && ms[i] in Candidates(g, Replay(g, s, ms[..i]))
  }

  /** `ms` is a complete rollout from `s`: candidate moves all the way to an
      end state. */
  ghost predicate IsRollout<S(!new)>(g: Game<S>, s: S, ms: seq<Action>)
    requires ValidGame(g)
  {
    RolloutPrefix(g, s, ms) && g.terminal(Replay(g, s, ms))
  }

  /** One more rollout step keeps a rollout prefix a rollout prefix. */
  lemma RolloutStep<S(!new)>(g: Game<S>, s: S, ms: seq<Action>, a: Action)
    requires ValidGame(g) && RolloutPrefix(g, s, ms)
    requires !g.terminal(Replay(g, s, ms)) && a in Candidates(g, Replay(g, s, ms))
    ensures RolloutPrefix(g, s, ms + [a])
    ensures Replay(g, s, ms + [a]) == g.result(Replay(g, s, ms), a)
  {
    var ms' := ms + [a];
    assert ms'[..|ms'| - 1] == ms;
    forall i | 0 <= i < |ms'|
      ensures !g.terminal(Replay(g, s, ms'[..i])) && ms'[i] in Candidates(g, Replay(g, s, ms'[..i]))
    {
      if i < |ms| {
        assert ms'[..i] == ms[..i];
      } else {
        assert ms'[..i] == ms;
      }
    }
  }

  /** The math-library functions the engines call, left uninterpreted. */
  datatype Numerics = Numerics(log: real -> real, sqrt: real -> real, exp: real -> real)

  /** The selection score given to a move that has never been played from a
      node (and, negated, to a move already taken in this descent). */
  const Sentinel: real := 1000000.0

  /** The UCT exploration bonus `0.4 * sqrt(log(n) / ni)`. */
  function Bonus(num: Numerics, n: real, ni: real): real
    requires ni != 0.0
  {
    0.4 * num.sqrt(num.log(n) / ni)
  }

  /** What the policy of the playout policy adaptation assumes of the math
      library: exp is positive. */
  ghost predicate PositiveExp(num: Numerics)
  {
    forall x :: num.exp(x) > 0.0
  }

  /** What the model assumes of the math library: exp is positive, log is
      non-negative from 1 on, and the UCT bonus of an explored move is
      non-negative and stays clear of the sentinel. */
  ghost predicate ValidNumerics(num: Numerics)
  {
    && PositiveExp(num)
    && (forall x :: 1.0 <= x ==> 0.0 <= num.log(x))
    && (forall n, ni :: 1.0 <= ni <= n ==> 0.0 <= Bonus(num, n, ni) < Sentinel - 1.0)
  }

  /** The exceptions the Python code can end in, and the two bounds the model
      puts on computations that need not end. */
  datatype Failure =
    | RecursionLimit    // the descent went deeper than the interpreter's recursion limit
    | EndlessPlayout    // a rollout exceeded the step bound (the source would loop forever)
    | NotSubscriptable  // a bare number was indexed with [0] (TypeError)
    | NoRootEntry       // the root has no table entry: None was indexed (TypeError)
    | NoLegalMoves      // moves[0] on an empty move list (IndexError)

  datatype Result<T> = Ok(value: T) | Err(failure: Failure)

  datatype Option<T> = None | Some(value: T)

  /** `dict.get(key, None)`: the value stored under `key`, if any. */
  function Find<V>(m: map<int, V>, key: int): Option<V>
  {
    if key in m then Some(m[key]) else None
  }
}

=== FILE: grave.dfy ===
/** The GRAVE engine (`GRAVEPlayer`): the MCTS descent over a table whose
    records also hold all-moves-as-first (AMAF) counts indexed by move code,
    with a selection score that blends a move's own win rate with the AMAF
    rate of a reference record inherited from above. */
module Grave {
  import opened GameModel
  import opened Stats
  import opened MoveCode

  /** A table record `[total, nplayouts, nwins, nplayoutsAMAF, nwinsAMAF, visited]`:
      the first two lists are indexed by move index, the AMAF lists by move
      code. */
  datatype AmafEntry = AmafEntry(
    total: int,
    playouts: seq<nat>,
    wins: seq<real>,
    amafPlayouts: seq<nat>,
    amafWins: seq<real>,
    visited: seq<bool>)

  /** What every record keeps: list lengths, the node count equal to the
      sum of the move playout counts, win sums between 0 and the playout
      count, non-negative AMAF win sums, and no visited flag ever raised
      (the engine writes its descent mark into the AMAF counts instead). */
  ghost predicate AmafEntryInv(e: AmafEntry, cap: nat, codes: nat)
  {
    && |e.playouts| == cap && |e.wins| == cap && |e.visited| == cap
    && |e.amafPlayouts| == codes && |e.amafWins| == codes
    && e.total == SumNat(e.playouts)
    && (forall i :: 0 <= i < cap ==> 0.0 <= e.wins[i] <= e.playouts[i] as real)
    && (forall c :: 0 <= c < codes ==> 0.0 <= e.amafWins[c])
    && (forall i :: 0 <= i < cap ==> !e.visited[i])
  }

  ghost predicate ValidAmafEntries(entries: map<int, AmafEntry>, cap: nat, codes: nat)
  {
    forall h :: h in entries ==> AmafEntryInv(entries[h], cap, codes)
  }

  /** The record `addAMAF` stores: every count, sum and flag zero. */
  function FreshAmafEntry(cap: nat, codes: nat): (e: AmafEntry)
    ensures AmafEntryInv(e, cap, codes)
    ensures e.total == 0
    ensures forall i :: 0 <= i < cap ==> e.playouts[i] == 0 && e.wins[i] == 0.0
    ensures forall c :: 0 <= c < codes ==> e.amafPlayouts[c] == 0 && e.amafWins[c] == 0.0
  {
    SumNatZeros(cap);
    AmafEntry(0, seq(cap, _ => 0), seq(cap, _ => 0.0), seq(codes, _ => 0), seq(codes, _ => 0.0), seq(cap, _ => false))
  }

  /** All codes of `played` index a list of `codes` elements. */
  ghost predicate InCodeRange(played: seq<int>, codes: nat)
  {
    forall i :: 0 <= i < |played| ==> 0 <= played[i] < codes
  }

  /** The AMAF weight `beta = nAMAF / (ni + nAMAF + 1e-5 * ni * nAMAF)`: with
      AMAF evidence it lies in (0, 1]. */
  function Beta(ni: real, na: real): (beta: real)
    requires 0.0 <= ni && 0.0 < na
    ensures 0.0 < beta <= 1.0
  {
    var d := ni + na + 0.00001 * ni * na;
    assert 0.0 <= 0.00001 * ni * na;
    assert na <= d;
    RatioInUnit(na, d);
    na / d
  }

  /** A rate seen from the other player's side when `flip` holds. */
  function Flip(v: real, flip: bool): real
  {
    if flip then 1.0 - v else v
  }

  /** The GRAVE score of move `i` with code `code`, using this node's record
      `t` and the reference record `tr`: minus the sentinel when flagged,
      the blend `(1 - beta) * Q + beta * AMAF` when the reference has AMAF
      evidence for the code (Q is 1 for a move never played here), and the
      sentinel otherwise. Both rates are flipped when the player to move is
      not the engine's player. */
  function GraveScore(t: AmafEntry, tr: AmafEntry, i: nat, code: int, toMove: int, me: int): real
    requires i < |t.playouts| && i < |t.wins| && i < |t.visited|
    requires 0 <= code < |tr.amafPlayouts| && code < |tr.amafWins|
  {
    if t.visited[i] then -Sentinel
    else if tr.amafPlayouts[code] > 0 then
      var ni, na := t.playouts[i] as real, tr.amafPlayouts[code] as real;
      var beta := Beta(ni, na);
      var q := if t.playouts[i] > 0 then Flip(t.wins[i] / ni, toMove != me) else 1.0;
      var amaf := Flip(tr.amafWins[code] / na, toMove != me);
      (1.0 - beta) * q + beta * amaf
    else Sentinel
  }

  /** The scores of the moves `moves` of a node. */
  function GraveScores(t: AmafEntry, tr: AmafEntry, moves: seq<Action>, boardLength: nat, toMove: int, me: int): (scores: seq<real>)
    requires |moves| <= |t.playouts| && |moves| <= |t.wins| && |moves| <= |t.visited|
    requires forall i :: 0 <= i < |moves| ==>
      0 <= ToCode(moves[i], boardLength) < |tr.amafPlayouts| && ToCode(moves[i], boardLength) < |tr.amafWins|
    ensures |scores| == |moves|
    ensures forall i :: 0 <= i < |moves| ==>
      scores[i] == GraveScore(t, tr, i, ToCode(moves[i], boardLength), toMove, me)
  {
    seq(|moves|, i requires 0 <= i < |moves| => GraveScore(t, tr, i, ToCode(moves[i], boardLength), toMove, me))
  }

  /** A product of two numbers in [0, 1] lies between 0 and the first. */
  lemma ScaleInUnit(x: real, y: real)
    requires 0.0 <= x <= 1.0 && 0.0 <= y <= 1.0
    ensures 0.0 <= x * y <= x
  {
    assert x - x * y == x * (1.0 - y);
  }

  /** A blend of two rates in [0, 1] with a weight in [0, 1] is in [0, 1]. */
  lemma BlendInUnit(q: real, a: real, beta: real)
    requires 0.0 <= q <= 1.0 && 0.0 <= a <= 1.0 && 0.0 <= beta <= 1.0
    ensures 0.0 <= (1.0 - beta) * q + beta * a <= 1.0
  {
    var rest := 1.0 - beta;
    ScaleInUnit(rest, q);
    ScaleInUnit(beta, a);
    var x, y := rest * q, beta * a;
    assert 0.0 <= x <= rest && 0.0 <= y <= beta;
    assert x + y <= 1.0;
  }

  /** With AMAF evidence and an AMAF rate of at most 1, the blended score
      lies in [0, 1]. */
  lemma GraveScoreInUnit(t: AmafEntry, tr: AmafEntry, cap: nat, codes: nat, i: nat, code: int, toMove: int, me: int)
    requires AmafEntryInv(t, cap, codes) && AmafEntryInv(tr, cap, codes)
    requires i < cap && 0 <= code < codes
    requires tr.amafPlayouts[code] > 0 && tr.amafWins[code] <= tr.amafPlayouts[code] as real
    ensures 0.0 <= GraveScore(t, tr, i, code, toMove, me) <= 1.0
  {
    var ni, na := t.playouts[i] as real, tr.amafPlayouts[code] as real;
    var beta := Beta(ni, na);
    RatioInUnit(tr.amafWins[code], na);
    if t.playouts[i] > 0 {
      RatioInUnit(t.wins[i], ni);
      BlendInUnit(Flip(t.wins[i] / ni, toMove != me), Flip(tr.amafWins[code] / na, toMove != me), beta);
    } else {
      BlendInUnit(1.0, Flip(tr.amafWins[code] / na, toMove != me), beta);
    }
  }

  /** The three bands of the GRAVE score when the AMAF rate of the code is
      at most 1: exactly a move flagged visited scores minus the sentinel,
      exactly the other moves whose code has no AMAF evidence score the
      sentinel, and every other move scores in [0, 1]. */
  lemma GraveScoreBands(t: AmafEntry, tr: AmafEntry, cap: nat, codes: nat, i: nat, code: int, toMove: int, me: int)
    requires AmafEntryInv(t, cap, codes) && AmafEntryInv(tr, cap, codes)
    requires i < cap && 0 <= code < codes
    requires tr.amafWins[code] <= tr.amafPlayouts[code] as real
    ensures GraveScore(t, tr, i, code, toMove, me) == -Sentinel <==> t.visited[i]
    ensures GraveScore(t, tr, i, code, toMove, me) == Sentinel <==> !t.visited[i] && tr.amafPlayouts[code] == 0
    ensures !t.visited[i] && tr.amafPlayouts[code] > 0 ==> 0.0 <= GraveScore(t, tr, i, code, toMove, me) <= 1.0
  {
    if !t.visited[i] && tr.amafPlayouts[code] > 0 {
      GraveScoreInUnit(t, tr, cap, codes, i, code, toMove, me);
    }
  }

  /** The first move whose code has no AMAF evidence in the reference
      record keeps the sentinel and is selected, as long as the AMAF rates
      of the moves with evidence do not exceed 1. */
  lemma UnseenCodeChosenFirst(t: AmafEntry, tr: AmafEntry, cap: nat, codes: nat, moves: seq<Action>,
                              boardLength: nat, toMove: int, me: int, k: nat, best: nat)
    requires AmafEntryInv(t, cap, codes) && AmafEntryInv(tr, cap, codes) && |moves| <= cap
    requires forall i :: 0 <= i < |moves| ==> 0 <= ToCode(moves[i], boardLength) < codes
    requires forall i :: 0 <= i < |moves| ==>
      tr.amafWins[ToCode(moves[i], boardLength)] <= tr.amafPlayouts[ToCode(moves[i], boardLength)] as real
    requires k < |moves| && tr.amafPlayouts[ToCode(moves[k], boardLength)] == 0
    requires forall j :: 0 <= j < k ==> tr.amafPlayouts[ToCode(moves[j], boardLength)] > 0
    requires IsSelected(GraveScores(t, tr, moves, boardLength, toMove, me), best)
    ensures best == k
  {
    var scores := GraveScores(t, tr, moves, boardLength, toMove, me);
    forall j | 0 <= j < |moves|
      ensures scores[j] <= Sentinel
      ensures j < k ==> scores[j] < Sentinel
    {
      var code := ToCode(moves[j], boardLength);
      if tr.amafPlayouts[code] > 0 {
        GraveScoreInUnit(t, tr, cap, codes, j, code, toMove, me);
      }
    }
    FirstTopSelected(scores, Sentinel, k, best);
  }

  /** The backpropagation of a completed descent: the AMAF count at index `best`
      (where the descent mark was written) is reset to 0 (False), the node
      count and the move's playout count go up by one and its win sum by
      the result. The record invariant is kept, and the visited flags are
      left alone. */
  function BackpropGrave(e: AmafEntry, cap: nat, codes: nat, best: nat, res: real): (r: AmafEntry)
    requires AmafEntryInv(e, cap, codes) && best < cap && best < codes && 0.0 <= res <= 1.0
    ensures AmafEntryInv(r, cap, codes)
    ensures r.total == e.total + 1
    ensures r.playouts[best] == e.playouts[best] + 1 && r.wins[best] == e.wins[best] + res
    ensures r.amafPlayouts[best] == 0 && r.visited == e.visited && r.amafWins == e.amafWins
    ensures forall j :: 0 <= j < cap && j != best ==> r.playouts[j] == e.playouts[j] && r.wins[j] == e.wins[j]
    ensures forall c :: 0 <= c < codes && c != best ==> r.amafPlayouts[c] == e.amafPlayouts[c]
  {
    SumNatIncrement(e.playouts, best);
    e.(total := e.total + 1,
       playouts := e.playouts[best := e.playouts[best] + 1],
       wins := e.wins[best := e.wins[best] + res],
       amafPlayouts := e.amafPlayouts[best := 0])
  }

  /** The AMAF lists of `e` once the codes of `played` are folded in: each
      code met in `played` gains one AMAF playout and `res` AMAF wins, once
      however often it occurs. */
  function AmafFold(e: AmafEntry, played: seq<int>, res: real): AmafEntry
  {
    e.(amafPlayouts := seq(|e.amafPlayouts|, c requires 0 <= c < |e.amafPlayouts| =>
                             e.amafPlayouts[c] + (if c in played then 1 else 0)),
       amafWins := seq(|e.amafWins|, c requires 0 <= c < |e.amafWins| =>
                         e.amafWins[c] + (if c in played then res else 0.0)))
  }

  /** The table once the descent mark is written into the AMAF count at
      index `best` of the record under `h`. */
  ghost function MarkedAmaf(entries: map<int, AmafEntry>, h: int, best: nat): map<int, AmafEntry>
    requires h in entries && best < |entries[h].amafPlayouts|
  {
    entries[h := entries[h].(amafPlayouts := entries[h].amafPlayouts[best := 1])]
  }

  /** A record's node count and per-move playout counts are no lower in
      `b` than in `a`; its AMAF counts may be (a descent mark is cleared). */
  ghost predicate AmafEntryCountsGrow(a: AmafEntry, b: AmafEntry)
  {
    && a.total <= b.total && |a.playouts| <= |b.playouts|
    && forall i :: 0 <= i < |a.playouts| ==> a.playouts[i] <= b.playouts[i]
  }

  /** Every record of `before` is still in `after`, with counts no lower. */
  ghost predicate AmafCountsGrow(before: map<int, AmafEntry>, after: map<int, AmafEntry>)
  {
    forall h :: h in before ==> h in after && AmafEntryCountsGrow(before[h], after[h])
  }

  /** Writing the descent mark lowers no count, so a table that grew from
      the marked table grew from the unmarked one. */
  lemma MarkedAmafCounts(before: map<int, AmafEntry>, h: int, best: nat, below: map<int, AmafEntry>)
    requires h in before && best < |before[h].amafPlayouts|
    requires AmafCountsGrow(MarkedAmaf(before, h, best), below)
    ensures AmafCountsGrow(before, below)
  {
    assert forall k :: k in before ==>
      MarkedAmaf(before, h, best)[k].total == before[k].total &&
      MarkedAmaf(before, h, best)[k].playouts == before[k].playouts;
  }

  /** Backing up a record lowers no count: the node count and the
      playouts of the chosen move go up, the other playouts stay. */
  lemma BackupCounts(before: map<int, AmafEntry>, below: map<int, AmafEntry>, h: int, cap: nat, codes: nat,
                     best: nat, res: real, played: seq<int>)
    requires AmafCountsGrow(before, below) && h in below && AmafEntryInv(below[h], cap, codes)
    requires best < cap && best < codes && 0.0 <= res <= 1.0
    ensures AmafCountsGrow(before, below[h := AmafFold(BackpropGrave(below[h], cap, codes, best, res), played, res)])
    ensures below[h := AmafFold(BackpropGrave(below[h], cap, codes, best, res), played, res)][h].total == below[h].total + 1
  {
    var e := below[h];
    var r := AmafFold(BackpropGrave(e, cap, codes, best, res), played, res);
    assert AmafEntryCountsGrow(e, r) by {
      forall i | 0 <= i < |e.playouts|
        ensures e.playouts[i] <= r.playouts[i]
      {
        if i != best {
          assert r.playouts[i] == e.playouts[i];
        }
      }
    }
    if h in before {
      var a := before[h];
      assert AmafEntryCountsGrow(a, e);
      assert AmafEntryCountsGrow(a, r) by {
        forall i | 0 <= i < |a.playouts|
          ensures a.playouts[i] <= r.playouts[i]
        {
          assert a.playouts[i] <= e.playouts[i];
        }
      }
    }
  }

  /** One completed descent through the record under `h` raises its node
      count by at least one. */
  lemma CountedVisitAmaf(before: map<int, AmafEntry>, h: int, best: nat, cap: nat, codes: nat,
                         below: map<int, AmafEntry>, res: real, played: seq<int>)
    requires h in before && best < |before[h].amafPlayouts| && AmafCountsGrow(MarkedAmaf(before, h, best), below)
    requires h in below && AmafEntryInv(below[h], cap, codes) && best < cap && best < codes && 0.0 <= res <= 1.0
    ensures below[h := AmafFold(BackpropGrave(below[h], cap, codes, best, res), played, res)][h].total >= before[h].total + 1
  {
    assert MarkedAmaf(before, h, best)[h].total == before[h].total;
  }

  /** Every state in `us` has a record, under `hash`, in both tables, and
      its node count is higher in `after` than in `before`. */
  ghost predicate AllCountedAmaf<S>(hash: S -> int, before: map<int, AmafEntry>, after: map<int, AmafEntry>, us: seq<S>)
  {
    forall i :: 0 <= i < |us| ==>
      hash(us[i]) in before && hash(us[i]) in after && before[hash(us[i])].total < after[hash(us[i])].total
  }

  /** One level up: when the deeper levels counted a visit of every state
      they passed through, the level that marked `best` in the record of
      `s` (under `h`) and then backs it up has counted a visit of `s` too. */
  lemma CountedLevelAmaf<S>(hash: S -> int, s: S, before: map<int, AmafEntry>, h: int, best: nat, cap: nat,
                            codes: nat, below: map<int, AmafEntry>, res: real, played: seq<int>, us: seq<S>)
    requires hash(s) == h && h in before && best < |before[h].amafPlayouts|
    requires AmafCountsGrow(MarkedAmaf(before, h, best), below)
    requires h in below && AmafEntryInv(below[h], cap, codes) && best < cap && best < codes && 0.0 <= res <= 1.0
    requires AllCountedAmaf(hash, MarkedAmaf(before, h, best), below, us)
    ensures AllCountedAmaf(hash, before, below[h := AmafFold(BackpropGrave(below[h], cap, codes, best, res), played, res)], [s] + us)
  {
    var after := below[h := AmafFold(BackpropGrave(below[h], cap, codes, best, res), played, res)];
    var mid := MarkedAmaf(before, h, best);
    CountedVisitAmaf(before, h, best, cap, codes, below, res, played);
    forall i | 0 <= i < |us|
      ensures hash(us[i]) in before && hash(us[i]) in after && before[hash(us[i])].total < after[hash(us[i])].total
    {
      var k := hash(us[i]);
      assert k in mid && mid[k].total == before[k].total;
      assert after[k].total >= below[k].total;
    }
  }

  /** `TranspositionTableAMAF`: AMAF records keyed by the hash of a state,
      with per-move lists of length `maxLegalMoves` and AMAF lists of length
      `3 * boardLength^4`. */
  class TranspositionTableAmaf<S(!new)> {
    var entries: map<int, AmafEntry>
    const maxLegalMoves: nat
    const boardLength: nat
    const codeSpace: nat
    const hash: S -> int

    ghost predicate Valid()
      reads this
    {
      && codeSpace == CodeSpace(boardLength)
      && maxLegalMoves <= codeSpace
      && ValidAmafEntries(entries, maxLegalMoves, codeSpace)
    }

    constructor (maxLegalMoves: nat, boardLength: nat, hash: S -> int)
      requires maxLegalMoves <= CodeSpace(boardLength)
      ensures Valid() && entries == map[]
      ensures this.maxLegalMoves == maxLegalMoves && this.boardLength == boardLength && this.hash == hash
    {
      this.maxLegalMoves := maxLegalMoves;
      this.boardLength := boardLength;
      this.codeSpace := CodeSpace(boardLength);
      this.hash := hash;
      entries := map[];
    }

    /** `look`: the record stored under the state's hash, if any. */
    function Look(s: S): Option<AmafEntry>
      reads this
    {
      Find(entries, hash(s))
    }

    /** `addAMAF`: store a fresh record under the state's hash, replacing
        any record there. Looking the state up then finds the fresh record,
        and every state with another hash finds what it found before. */
    method AddAmaf(s: S)
      requires Valid()
      modifies this
      ensures Valid()
      ensures entries == old(entries)[hash(s) := FreshAmafEntry(maxLegalMoves, codeSpace)]
      ensures Look(s) == Some(FreshAmafEntry(maxLegalMoves, codeSpace))
      ensures forall s' :: hash(s') != hash(s) ==> Look(s') == old(Look(s'))
    {
      entries := entries[hash(s) := FreshAmafEntry(maxLegalMoves, codeSpace)];
    }

    /** `updateAMAF`: fold the codes played below a node into its AMAF
        lists, skipping a code already met earlier in `played`. Each distinct
        code gains exactly one AMAF playout and `res` AMAF wins however
        often it occurs; every other code and every other slot is kept. */
    method UpdateAmaf(e: AmafEntry, played: seq<int>, res: real) returns (r: AmafEntry)
      requires |e.amafPlayouts| == |e.amafWins| && InCodeRange(played, |e.amafPlayouts|)
      ensures r.total == e.total && r.playouts == e.playouts && r.wins == e.wins && r.visited == e.visited
      ensures |r.amafPlayouts| == |e.amafPlayouts| && |r.amafWins| == |e.amafWins|
      ensures forall c :: 0 <= c < |e.amafPlayouts| ==>
        r.amafPlayouts[c] == e.amafPlayouts[c] + (if c in played then 1 else 0) &&
        r.amafWins[c] == e.amafWins[c] + (if c in played then res else 0.0)
      ensures r == AmafFold(e, played, res)
    {
      r := e;
      for i := 0 to |played|
        invariant r.total == e.total && r.playouts == e.playouts && r.wins == e.wins && r.visited == e.visited
        invariant |r.amafPlayouts| == |e.amafPlayouts| && |r.amafWins| == |e.amafWins|
        invariant forall c :: 0 <= c < |e.amafPlayouts| ==>
          r.amafPlayouts[c] == e.amafPlayouts[c] + (if c in played[..i] then 1 else 0) &&
          r.amafWins[c] == e.amafWins[c] + (if c in played[..i] then res else 0.0)
      {
        assert played[..i + 1] == played[..i] + [played[i]];
        var code := played[i];
        if code !in played[..i] {
          r := r.(amafPlayouts := r.amafPlayouts[code := r.amafPlayouts[code] + 1],
                  amafWins := r.amafWins[code := r.amafWins[code] + res]);
        }
      }
      assert played[..|played|] == played;
    }
  }

  /** The fold keeps the record invariant when the result lies in [0, 1]. */
  lemma UpdateKeepsInv(e: AmafEntry, r: AmafEntry, cap: nat, codes: nat, played: seq<int>, res: real)
    requires AmafEntryInv(e, cap, codes) && 0.0 <= res <= 1.0
    requires r.total == e.total && r.playouts == e.playouts && r.wins == e.wins && r.visited == e.visited
    requires |r.amafPlayouts| == codes && |r.amafWins| == codes
    requires forall c :: 0 <= c < codes ==>
      r.amafWins[c] == e.amafWins[c] + (if c in played then res else 0.0)
    ensures AmafEntryInv(r, cap, codes)
  {
  }

  /** The bookkeeping of one level of a descent: the mark in the AMAF count
      at `best`, the deeper levels (`below`), then the backpropagation and
      the fold (`folded`). The table stays valid and grows as the deeper
      levels made it grow. */
  lemma DescentStep(before: map<int, AmafEntry>, h: int, best: nat, cap: nat, codes: nat,
                    below: map<int, AmafEntry>, folded: AmafEntry)
    requires ValidAmafEntries(before, cap, codes) && h in before && best < cap <= codes
    requires ValidAmafEntries(below, cap, codes) && TableGrows(MarkedAmaf(before, h, best), below, FreshAmafEntry(cap, codes))
    requires AmafEntryInv(folded, cap, codes)
    ensures h in below
    ensures var after := below[h := folded];
      ValidAmafEntries(after, cap, codes) && TableGrows(before, after, FreshAmafEntry(cap, codes))
  {
    var mid := MarkedAmaf(before, h, best);
    assert mid.Keys == before.Keys;
    assert below[h := folded].Keys == below.Keys;
  }

  /** A list that starts with `played` and one code more starts with
      `played`. */
  lemma PrefixOfExtended(played: seq<int>, code: int, codes: seq<int>)
    requires played + [code] <= codes
    ensures played <= codes
  {
    assert codes[..|played|] == (played + [code])[..|played|];
  }

  /** Every move of an on-board move list has a code that fits the AMAF
      lists. */
  lemma MovesFit(ms: seq<Action>, boardLength: nat)
    requires forall i :: 0 <= i < |ms| ==> OnBoard(ms[i], boardLength)
    ensures forall i :: 0 <= i < |ms| ==> 0 <= ToCode(ms[i], boardLength) < CodeSpace(boardLength)
    ensures InCodeRange(Codes(ms, boardLength), CodeSpace(boardLength))
  {
    forall i | 0 <= i < |ms|
      ensures 0 <= ToCode(ms[i], boardLength) < CodeSpace(boardLength)
    {
      CodeInRange(ms[i], boardLength);
    }
  }

  /** `GRAVEPlayer`: `nb` descents per move; a record becomes the AMAF
      reference of its subtree once its node count exceeds `minVisit`;
      values are taken from the point of view of `player`. */
  /** One completed descent of `get_action` from the root: the table
      went from `before` to `after`, the descent returned `value`, and the
      rest names its choices at the root as `Descended` does. */
  datatype RootDescent = RootDescent(before: map<int, AmafEntry>, after: map<int, AmafEntry>, value: (real, seq<int>),
                                     tr: int, best: nat, below: map<int, AmafEntry>, path: seq<Action>)

  class GRAVEPlayer<S(!new)> {
    const table: TranspositionTableAmaf<S>
    const nb: nat
    const minVisit: int
    const player: int

    ghost predicate Valid()
      reads this, table
    {
      table.Valid()
    }

    constructor (nb: nat, player: int, maxLegalMoves: nat, boardLength: nat, minVisit: int, hash: S -> int)
      requires maxLegalMoves <= CodeSpace(boardLength)
      ensures Valid() && fresh(table) && table.entries == map[]
      ensures this.nb == nb && this.player == player && this.minVisit == minVisit
      ensures table.maxLegalMoves == maxLegalMoves && table.boardLength == boardLength && table.hash == hash
    {
      this.nb := nb;
      this.player := player;
      this.minVisit := minVisit;
      table := new TranspositionTableAmaf(maxLegalMoves, boardLength, hash);
    }

    /** Where the value and the code list of a successful descent come
        from, given the codes `played` before it, the moves `path` it
        followed to `leaf`, and the moves `rollout` played out from there:
        an end state reached by the descent yields its value for `player`
        and an empty list; any other `leaf` yields the end utility of a
        complete rollout for the player to move at `leaf`, and the codes of
        `played`, `path` and `rollout` in that order. */
    ghost predicate Outcome(g: Game<S>, played: seq<int>, path: seq<Action>, leaf: S, rollout: seq<Action>,
                            r: Result<(real, seq<int>)>)
      requires ValidGame(g)
    {
      && (r.Ok? && g.terminal(leaf) ==> r.value == (Reward(g, leaf, player), []))
      && (r.Ok? && !g.terminal(leaf) ==>
            && IsRollout(g, leaf, rollout)
            && r.value == (Reward(g, Replay(g, leaf, rollout), g.toMove(leaf)),
                           played + Codes(path, table.boardLength) + Codes(rollout, table.boardLength)))
    }

    /** One level up: the outcome of a descent from the state reached by
        the move `m`, with the code of `m` appended to `played`, is the
        outcome of the descent from `s` that starts with `m`. */
    lemma OutcomeStep(g: Game<S>, s: S, m: Action, played: seq<int>, path: seq<Action>, leaf: S,
                      rollout: seq<Action>, r: Result<(real, seq<int>)>)
      requires ValidGame(g) && leaf == Replay(g, g.result(s, m), path)
      requires Outcome(g, played + [ToCode(m, table.boardLength)], path, leaf, rollout, r)
      ensures leaf == Replay(g, s, [m] + path)
      ensures Outcome(g, played, [m] + path, leaf, rollout, r)
    {
      var l := table.boardLength;
      ReplayFirst(g, s, m, path);
      CodesCons(m, path, l);
      assert played + Codes([m] + path, l) == (played + [ToCode(m, l)]) + Codes(path, l);
    }

    /** The choices `searchGRAVE` makes at a state `s` with a record, in the
        table `before`: the record under the state's hash becomes the
        reference `tr` when its node count exceeds `minVisit`, and `tref`
        stays the reference otherwise; `best` is the selection under the
        GRAVE score against that reference. */
    ghost predicate Chose(g: Game<S>, s: S, tref: int, before: map<int, AmafEntry>, tr: int, best: nat)
    {
      var h, cap, codes, l := table.hash(s), table.maxLegalMoves, table.codeSpace, table.boardLength;
      && ValidGame(g) && GameOnBoard(g, l) && FitsCapacity(g, cap) && !g.terminal(s)
      && codes == CodeSpace(l) && cap <= codes
      && ValidAmafEntries(before, cap, codes) && h in before && tref in before
      && tr == (if before[h].total > minVisit then h else tref)
      && best < |g.actions(s)|
      && (MovesFit(g.actions(s), l);
          IsSelected(GraveScores(before[h], before[tr], g.actions(s), l, g.toMove(s), player), best))
    }

    /** What the branch of `searchGRAVE` for a state `s` with a record does,
        from the table `before` to the table `after`, with result `r`,
        after choosing the reference `tr` and the move `best`. The mark is
        written into the AMAF count at index `best` before the deeper levels
        run and leave the table `below`; `path` starts with the chosen move.
        On success the code list returned is empty or starts with `played`
        and the chosen move's code, and the record is backpropagated
        through `best` and folded with that list; on failure the table stays
        as the deeper levels left it. */
    ghost predicate Descended(g: Game<S>, s: S, played: seq<int>, tref: int,
                              before: map<int, AmafEntry>, after: map<int, AmafEntry>,
                              r: Result<(real, seq<int>)>, tr: int, best: nat, below: map<int, AmafEntry>,
                              path: seq<Action>)
    {
      var h, cap, codes, l := table.hash(s), table.maxLegalMoves, table.codeSpace, table.boardLength;
      && Chose(g, s, tref, before, tr, best)
      && path != [] && path[0] == g.actions(s)[best]
      && ValidAmafEntries(below, cap, codes) && h in below
      && TableGrows(MarkedAmaf(before, h, best), below, FreshAmafEntry(cap, codes))
      && AmafCountsGrow(MarkedAmaf(before, h, best), below)
      && (r.Ok? ==>
            && 0.0 <= r.value.0 <= 1.0 && InCodeRange(r.value.1, codes)
            && (r.value.1 == [] || played + [ToCode(g.actions(s)[best], l)] <= r.value.1)
            && after == below[h := AmafFold(BackpropGrave(below[h], cap, codes, best, r.value.0), r.value.1, r.value.0)])
      && (r.Err? ==> after == below)
    }

    /** A completed descent `d` from the root `s`, whose own record is its
        first reference: an end state leaves the table alone and yields its
        value for `player`; any other root is descended from as
        `Descended` says, starting from the root record in `d.before`. */
    ghost predicate RootStep(g: Game<S>, s: S, d: RootDescent)
    {
      && ValidGame(g)
      && (g.terminal(s) ==> d.after == d.before && d.value == (Reward(g, s, player), []))
      && (!g.terminal(s) ==>
            Descended(g, s, [], table.hash(s), d.before, d.after, Ok(d.value), d.tr, d.best, d.below, d.path))
    }

    /** The descents `ds` of `get_action`, in order, lead from the table
        `start` to the table `now`, each starting from the table the
        previous one left. */
    ghost predicate RootDescents(g: Game<S>, s: S, start: map<int, AmafEntry>, ds: seq<RootDescent>,
                                 now: map<int, AmafEntry>)
    {
      && (ds == [] ==> now == start)
      && (ds != [] ==> ds[0].before == start && ds[|ds| - 1].after == now)
      && (forall j :: 0 < j < |ds| ==> ds[j].before == ds[j - 1].after)
      && (forall j :: 0 <= j < |ds| ==> RootStep(g, s, ds[j]))
    }

    /** One more descent, starting from the table the previous ones left. */
    lemma RootDescentsStep(g: Game<S>, s: S, start: map<int, AmafEntry>, ds: seq<RootDescent>, d: RootDescent)
      requires RootDescents(g, s, start, ds, d.before) && RootStep(g, s, d)
      ensures RootDescents(g, s, start, ds + [d], d.after)
    {
      var ds' := ds + [d];
      forall j | 0 <= j < |ds'|
        ensures RootStep(g, s, ds'[j]) && (0 < j ==> ds'[j].before == ds'[j - 1].after)
      {
        if j < |ds| {
          assert ds'[j] == ds[j];
        }
        if 0 < j {
          assert ds'[j - 1] == ds[j - 1];
        }
      }
    }

    /** The selection loop of `searchGRAVE` at a state with record `e`,
        scored against the reference record `tre`. */
    method SelectGrave(g: Game<S>, s: S, e: AmafEntry, tre: AmafEntry) returns (best: nat)
      requires Valid() && ValidGame(g) && GameOnBoard(g, table.boardLength)
      requires FitsCapacity(g, table.maxLegalMoves) && !g.terminal(s)
      requires AmafEntryInv(e, table.maxLegalMoves, table.codeSpace) && AmafEntryInv(tre, table.maxLegalMoves, table.codeSpace)
      requires forall i :: 0 <= i < |g.actions(s)| ==> 0 <= ToCode(g.actions(s)[i], table.boardLength) < table.codeSpace
      ensures best < |g.actions(s)| && 0 <= ToCode(g.actions(s)[best], table.boardLength) < table.codeSpace
      ensures IsSelected(GraveScores(e, tre, g.actions(s), table.boardLength, g.toMove(s), player), best)
    {
      best := SelectFirstBest(GraveScores(e, tre, g.actions(s), table.boardLength, g.toMove(s), player));
    }

    /** The end of a `searchGRAVE` descent on the record `e` of the node:
        the backpropagation of `res` through move `best`, then the fold of the
        codes `played` into the AMAF lists. The record invariant is kept. */
    method Backup(e: AmafEntry, best: nat, res: real, played: seq<int>) returns (r: AmafEntry)
      requires table.codeSpace == CodeSpace(table.boardLength) && table.maxLegalMoves <= table.codeSpace
      requires AmafEntryInv(e, table.maxLegalMoves, table.codeSpace) && best < table.maxLegalMoves
      requires 0.0 <= res <= 1.0 && InCodeRange(played, table.codeSpace)
      ensures AmafEntryInv(r, table.maxLegalMoves, table.codeSpace)
      ensures r.total == e.total + 1
      ensures r.playouts[best] == e.playouts[best] + 1 && r.wins[best] == e.wins[best] + res
      ensures forall j :: 0 <= j < table.maxLegalMoves && j != best ==> r.playouts[j] == e.playouts[j] && r.wins[j] == e.wins[j]
      ensures forall c :: 0 <= c < table.codeSpace ==>
        r.amafPlayouts[c] == (if c == best then 0 else e.amafPlayouts[c]) + (if c in played then 1 else 0) &&
        r.amafWins[c] == e.amafWins[c] + (if c in played then res else 0.0)
      ensures r == AmafFold(BackpropGrave(e, table.maxLegalMoves, table.codeSpace, best, res), played, res)
    {
      var b := BackpropGrave(e, table.maxLegalMoves, table.codeSpace, best, res);
      r := table.UpdateAmaf(b, played, res);
      UpdateKeepsInv(b, r, table.maxLegalMoves, table.codeSpace, played, res);
    }

    /** `forward_playoutAMAF`: a forward-biased random rollout that appends
        the code of every move it plays to `played`, and reports the end
        utility for the player to move at `s`, mapped to [0, 1]. */
    method ForwardPlayoutAmaf(g: Game<S>, s: S, played: seq<int>, steps: nat)
      returns (r: Result<(real, seq<int>)>, ghost ms: seq<Action>)
      requires ValidGame(g)
      ensures r.Ok? ==> IsRollout(g, s, ms)
      ensures r.Ok? ==> r.value.0 == Reward(g, Replay(g, s, ms), g.toMove(s))
      ensures r.Ok? ==> r.value.1 == played + Codes(ms, table.boardLength)
      ensures r.Err? ==> r.failure == EndlessPlayout
    {
      var cur, taken, out := s, 0, played;
      ms := [];
      while !g.terminal(cur)
        invariant cur == Replay(g, s, ms) && RolloutPrefix(g, s, ms) && taken == |ms| <= steps
        invariant out == played + Codes(ms, table.boardLength)
        decreases steps - taken
      {
        if taken == steps {
          return Err(EndlessPlayout), ms;
        }
        var moves := g.forwardActions(cur);
        if |moves| == 0 {
          moves := g.actions(cur);
        }
        assert moves == Candidates(g, cur);
        var k :| 0 <= k < |moves|;
        RolloutStep(g, s, ms, moves[k]);
        cur := g.result(cur, moves[k]);
        out := out + [ToCode(moves[k], table.boardLength)];
        ms, taken := ms + [moves[k]], taken + 1;
      }
      r := Ok((Reward(g, cur, g.toMove(s)), out));
    }

    /** `searchGRAVE`: one descent. `played` is the list of codes shared by
        the whole descent and `tref` the key of the inherited reference
        record. An end state reports its value for `player` with an empty
        code list; a state with a record selects, appends the chosen code,
        marks the AMAF count at the move index, descends, then
        backpropagates and folds the codes that come back into its AMAF
        lists; a state without one gets a fresh record and a rollout.

        The ghost results name what the descent did: `path` is the moves it
        followed from `s` to `leaf`, the state where it stopped, and
        `rollout` the moves played out from there. A value comes from an
        end state reached by the descent, with an empty list, or from a
        complete rollout from `leaf`, with `played`, the codes of `path` and
        those of the rollout. Only `leaf` can gain a record. */
    method SearchGrave(g: Game<S>, s: S, played: seq<int>, tref: int, depth: nat, steps: nat)
      returns (r: Result<(real, seq<int>)>, ghost tr: int, ghost best: nat, ghost below: map<int, AmafEntry>,
               ghost leaf: S, ghost rollout: seq<Action>, ghost path: seq<Action>)
      requires Valid() && ValidGame(g) && GameOnBoard(g, table.boardLength)
      requires FitsCapacity(g, table.maxLegalMoves)
      requires tref in table.entries && InCodeRange(played, table.codeSpace)
      modifies table
      ensures Valid()
      ensures TableGrows(old(table.entries), table.entries, FreshAmafEntry(table.maxLegalMoves, table.codeSpace))
      ensures AmafCountsGrow(old(table.entries), table.entries)
      ensures leaf == Replay(g, s, path)
      ensures table.entries.Keys <= old(table.entries).Keys + {table.hash(leaf)}
      ensures r.Ok? ==> 0.0 <= r.value.0 <= 1.0 && InCodeRange(r.value.1, table.codeSpace)
      ensures r.Ok? ==> r.value.1 == [] || played <= r.value.1
      ensures Outcome(g, played, path, leaf, rollout, r)
      ensures AllRecorded(g, table.hash, old(table.entries).Keys, PathStates(g, s, path))
      ensures r.Ok? ==> AllCountedAmaf(table.hash, old(table.entries), table.entries, PathStates(g, s, path))
      ensures r.Ok? && !g.terminal(leaf) ==>
        table.hash(leaf) !in old(table.entries) && table.hash(leaf) in table.entries &&
        table.entries[table.hash(leaf)] == FreshAmafEntry(table.maxLegalMoves, table.codeSpace)
      ensures depth == 0 ==> r == Err(RecursionLimit) && table.entries == old(table.entries) && path == []
      ensures 0 < depth && g.terminal(s) ==>
        r == Ok((Reward(g, s, player), [])) && table.entries == old(table.entries) && path == []
      ensures 0 < depth && !g.terminal(s) && table.hash(s) !in old(table.entries) ==>
        table.entries == old(table.entries)[table.hash(s) := FreshAmafEntry(table.maxLegalMoves, table.codeSpace)] &&
        path == []
      ensures 0 < depth && !g.terminal(s) && table.hash(s) in old(table.entries) ==>
        Descended(g, s, played, tref, old(table.entries), table.entries, r, tr, best, below, path)
      decreases depth, 1
    {
      tr, best, below, leaf, rollout, path := tref, 0, table.entries, s, [], [];
      if depth == 0 {
        r := Err(RecursionLimit);
        return;
      }
      if g.terminal(s) {
        r := Ok((Reward(g, s, player), []));
        return;
      }
      var t := table.Look(s);
      if t.Some? {
        r, tr, best, below, leaf, rollout, path := Descend(g, s, played, tref, depth, steps);
      } else {
        table.AddAmaf(s);
        r, rollout := ForwardPlayoutAmaf(g, s, played, steps);
        if r.Ok? {
          MovesFit(rollout, table.boardLength);
          assert Codes(path, table.boardLength) == [];
          assert played + Codes(path, table.boardLength) == played;
        }
      }
    }

    /** The first half of the branch of `searchGRAVE` for a state with a
        record: the record becomes the reference when its node count exceeds
        `minVisit`, the move is selected under the GRAVE score, and the AMAF
        count at its index is marked before the descent. */
    method MarkChoice(g: Game<S>, s: S, tref: int) returns (reference: int, b: nat)
      requires Valid() && ValidGame(g) && GameOnBoard(g, table.boardLength)
      requires FitsCapacity(g, table.maxLegalMoves) && !g.terminal(s)
      requires table.hash(s) in table.entries && tref in table.entries
      modifies table
      ensures Valid()
      ensures Chose(g, s, tref, old(table.entries), reference, b)
      ensures table.entries == MarkedAmaf(old(table.entries), table.hash(s), b)
      ensures table.entries.Keys == old(table.entries).Keys
    {
      var cap, codes, l := table.maxLegalMoves, table.codeSpace, table.boardLength;
      var h := table.hash(s);
      var e := table.entries[h];
      reference := tref;
      if e.total > minVisit {
        reference := h;
      }
      MovesFit(g.actions(s), l);
      ghost var m := table.entries;
      assert AmafEntryInv(m[h], cap, codes) && AmafEntryInv(m[reference], cap, codes);
      b := SelectGrave(g, s, e, table.entries[reference]);
      table.entries := table.entries[h := e.(amafPlayouts := e.amafPlayouts[b := 1])];
      assert table.entries == MarkedAmaf(m, h, b);
    }

    /** The branch of `searchGRAVE` for a state with a record: after the
        choice and the mark, the selected move's code is appended to
        `played`, the descent continues below, and on return the record is
        backpropagated and the codes that come back are folded into its
        AMAF lists. */
    method Descend(g: Game<S>, s: S, played: seq<int>, tref: int, depth: nat, steps: nat)
      returns (r: Result<(real, seq<int>)>, ghost tr: int, ghost best: nat, ghost below: map<int, AmafEntry>,
               ghost leaf: S, ghost rollout: seq<Action>, ghost path: seq<Action>)
      requires Valid() && ValidGame(g) && GameOnBoard(g, table.boardLength)
      requires FitsCapacity(g, table.maxLegalMoves) && !g.terminal(s) && 0 < depth
      requires table.hash(s) in table.entries && tref in table.entries && InCodeRange(played, table.codeSpace)
      modifies table
      ensures Valid()
      ensures TableGrows(old(table.entries), table.entries, FreshAmafEntry(table.maxLegalMoves, table.codeSpace))
      ensures AmafCountsGrow(old(table.entries), table.entries)
      ensures leaf == Replay(g, s, path)
      ensures table.entries.Keys <= old(table.entries).Keys + {table.hash(leaf)}
      ensures r.Ok? ==> 0.0 <= r.value.0 <= 1.0 && InCodeRange(r.value.1, table.codeSpace)
      ensures r.Ok? ==> r.value.1 == [] || played <= r.value.1
      ensures Outcome(g, played, path, leaf, rollout, r)
      ensures AllRecorded(g, table.hash, old(table.entries).Keys, PathStates(g, s, path))
      ensures r.Ok? ==> AllCountedAmaf(table.hash, old(table.entries), table.entries, PathStates(g, s, path))
      ensures r.Ok? && !g.terminal(leaf) ==>
        table.hash(leaf) !in old(table.entries) && table.hash(leaf) in table.entries &&
        table.entries[table.hash(leaf)] == FreshAmafEntry(table.maxLegalMoves, table.codeSpace)
      ensures Descended(g, s, played, tref, old(table.entries), table.entries, r, tr, best, below, path)
      decreases depth, 0
    {
      var cap, codes, l := table.maxLegalMoves, table.codeSpace, table.boardLength;
      var h := table.hash(s);
      var moves := g.actions(s);
      MovesFit(moves, l);
      var reference, b := MarkChoice(g, s, tref);
      ghost var marked := table.entries;
      tr, best := reference, b;
      var bestcode := ToCode(moves[b], l);
      var child := g.result(s, moves[b]);
      ghost var tr', best', below', path';
      r, tr', best', below', leaf, rollout, path' := SearchGrave(g, child, played + [bestcode], reference, depth - 1, steps);
      below := table.entries;
      path := [moves[b]] + path';
      OutcomeStep(g, s, moves[b], played, path', leaf, rollout, r);
      PathStatesCons(g, s, moves[b], path');
      RecordedCons(g, table.hash, marked.Keys, s, PathStates(g, child, path'));
      MarkedAmafCounts(old(table.entries), h, b, below);
      if r.Err? {
        return;
      }
      if r.value.1 != [] {
        PrefixOfExtended(played, bestcode, r.value.1);
      }
      Commit(old(table.entries), h, b, r.value);
      assert AmafEntryInv(below[h], cap, codes);
      CountedLevelAmaf(table.hash, s, old(table.entries), h, b, cap, codes, below, r.value.0, r.value.1,
                       PathStates(g, child, path'));
    }

    /** The last step of the branch for a state with a record: the record
        under `h` is backed up with the result `res` through the move `b`
        and the codes that came back. */
    method Commit(ghost before: map<int, AmafEntry>, h: int, b: nat, res: (real, seq<int>))
      requires Valid() && ValidAmafEntries(before, table.maxLegalMoves, table.codeSpace)
      requires h in before && b < table.maxLegalMoves
      requires TableGrows(MarkedAmaf(before, h, b), table.entries, FreshAmafEntry(table.maxLegalMoves, table.codeSpace))
      requires AmafCountsGrow(MarkedAmaf(before, h, b), table.entries)
      requires 0.0 <= res.0 <= 1.0 && InCodeRange(res.1, table.codeSpace)
      modifies table
      ensures Valid() && h in old(table.entries) && table.entries.Keys == old(table.entries).Keys
      ensures table.entries == old(table.entries)[h :=
        AmafFold(BackpropGrave(old(table.entries)[h], table.maxLegalMoves, table.codeSpace, b, res.0), res.1, res.0)]
      ensures TableGrows(before, table.entries, FreshAmafEntry(table.maxLegalMoves, table.codeSpace))
      ensures AmafCountsGrow(before, table.entries)
    {
      var cap, codes := table.maxLegalMoves, table.codeSpace;
      DescentStep(before, h, b, cap, codes, table.entries, FreshAmafEntry(cap, codes));
      ghost var m := table.entries;
      assert AmafEntryInv(m[h], cap, codes);
      var e' := Backup(table.entries[h], b, res.0, res.1);
      DescentStep(before, h, b, cap, codes, table.entries, e');
      MarkedAmafCounts(before, h, b, table.entries);
      BackupCounts(before, table.entries, h, cap, codes, b, res.0, res.1);
      table.entries := table.entries[h := e'];
    }

    /** `get_action`: a fresh root record (discarding what earlier calls
        gathered at the root), `nb` descents that use it as their first
        reference, then the first root move with the most playouts. A
        successful call made all `nb` descents, each of which counted one
        visit of the fresh root record. */
    method GetAction(g: Game<S>, s: S, depth: nat, steps: nat)
      returns (r: Result<Action>, ghost start: map<int, AmafEntry>, ghost ds: seq<RootDescent>)
      requires Valid() && ValidGame(g) && GameOnBoard(g, table.boardLength)
      requires FitsCapacity(g, table.maxLegalMoves)
      modifies table
      ensures Valid()
      ensures old(table.entries).Keys + {table.hash(s)} <= table.entries.Keys
      ensures r.Ok? ==>
        table.hash(s) in table.entries &&
        exists k: nat :: IsMostVisited(table.entries[table.hash(s)].playouts, |g.actions(s)|, k) && r.value == g.actions(s)[k]
      ensures nb == 0 && |g.actions(s)| > 0 ==> r == Ok(g.actions(s)[0])
      ensures r.Ok? && !g.terminal(s) ==> table.entries[table.hash(s)].total >= nb
      ensures start == old(table.entries)[table.hash(s) := FreshAmafEntry(table.maxLegalMoves, table.codeSpace)]
      ensures |ds| <= nb && (r.Ok? ==> |ds| == nb && RootDescents(g, s, start, ds, table.entries))
      ensures g.terminal(s) ==> table.entries == start
    {
      table.AddAmaf(s);
      start, ds := table.entries, [];
      var root := table.hash(s);
      var i := 0;
      while i < nb
        invariant i <= nb && Valid() && root in table.entries
        invariant old(table.entries).Keys + {root} <= table.entries.Keys
        invariant i == 0 ==> table.entries[root] == FreshAmafEntry(table.maxLegalMoves, table.codeSpace)
        invariant !g.terminal(s) ==> table.entries[root].total >= i
        invariant |ds| == i && RootDescents(g, s, start, ds, table.entries)
        invariant g.terminal(s) ==> table.entries == start
      {
        ghost var before, tr, best, below, leaf, rollout, path := table.entries, root, 0, map[], s, [], [];
        var res;
        res, tr, best, below, leaf, rollout, path := SearchGrave(g, s, [], root, depth, steps);
        if res.Err? {
          r := Err(res.failure);
          return;
        }
        if !g.terminal(s) {
          assert AmafEntryInv(before[root], table.maxLegalMoves, table.codeSpace);
          assert AmafEntryInv(below[root], table.maxLegalMoves, table.codeSpace);
          CountedVisitAmaf(before, root, best, table.maxLegalMoves, table.codeSpace, below, res.value.0, res.value.1);
        }
        ghost var d := RootDescent(before, table.entries, res.value, tr, best, below, path);
        RootDescentsStep(g, s, start, ds, d);
        ds := ds + [d];
        i := i + 1;
      }
      r := MostPlayedRootMove(g, s);
    }

    /** The end of `get_action`: the first root move with the most
        playouts in the root record. Only a root without legal moves fails;
        at a fresh root record that is the first move. */
    method MostPlayedRootMove(g: Game<S>, s: S) returns (r: Result<Action>)
      requires Valid() && FitsCapacity(g, table.maxLegalMoves) && table.hash(s) in table.entries
      ensures r.Ok? ==>
        exists k: nat :: IsMostVisited(table.entries[table.hash(s)].playouts, |g.actions(s)|, k) && r.value == g.actions(s)[k]
      ensures r.Err? <==> |g.actions(s)| == 0
      ensures table.entries[table.hash(s)] == FreshAmafEntry(table.maxLegalMoves, table.codeSpace) && |g.actions(s)| > 0 ==>
        r == Ok(g.actions(s)[0])
    {
      var t := table.Look(s);
      var moves := g.actions(s);
      if |moves| == 0 {
        r := Err(NoLegalMoves);
        return;
      }
      ghost var m, key := table.entries, table.hash(s);
      assert AmafEntryInv(m[key], table.maxLegalMoves, table.codeSpace);
      var k := MostVisited(t.value.playouts, |moves|);
      if m[key] == FreshAmafEntry(table.maxLegalMoves, table.codeSpace) {
        assert IsMostVisited(t.value.playouts, |moves|, 0);
      }
      r := Ok(moves[k]);
    }
  }
}

=== FILE: mcts.dfy ===
/** The UCT Monte-Carlo tree search engine (`MCTSPlayer`) and its
    transposition table: per state hash, the node's visit count and, per
    move index, a playout count, a win sum and an "already taken in this
    descent" flag. The PPA engine uses the same table, selection and
    backpropagation. */
module Mcts {
  import opened GameModel
  import opened Stats

  /** A table record `[total, nplayouts, nwins, visited]`. */
  datatype Entry = Entry(total: int, playouts: seq<nat>, wins: seq<real>, visited: seq<bool>)

  /** What every record of the table keeps: lists of the table's capacity,
      the node's visit count equal to the sum of its moves' playout counts,
      and each win sum between 0 and that move's playout count. */
  ghost predicate EntryInv(e: Entry, cap: nat)
  {
    && |e.playouts| == cap && |e.wins| == cap && |e.visited| == cap
    && e.total == SumNat(e.playouts)
    && forall i :: 0 <= i < cap ==> 0.0 <= e.wins[i] <= e.playouts[i] as real
  }

  /** The record `add` stores: no visits, no wins, nothing taken. */
  function FreshEntry(cap: nat): (e: Entry)
    ensures EntryInv(e, cap)
    ensures e.total == 0
    ensures forall i :: 0 <= i < cap ==> e.playouts[i] == 0 && e.wins[i] == 0.0 && !e.visited[i]
  {
    SumNatZeros(cap);
    Entry(0, seq(cap, _ => 0), seq(cap, _ => 0.0), seq(cap, _ => false))
  }

  /** The UCT score of move `i`: minus the sentinel for a move already
      taken in this descent, the sentinel for a move never played, and
      otherwise the win rate (for player 2, the loss rate) plus the
      exploration bonus. */
  function UctScore(e: Entry, i: nat, toMove: int, num: Numerics): real
    requires i < |e.playouts| && i < |e.wins| && i < |e.visited|
  {
    if e.visited[i] then -Sentinel
    else if e.playouts[i] > 0 then
      var q := e.wins[i] / e.playouts[i] as real;
      (if toMove == 2 then 1.0 - q else q) + Bonus(num, e.total as real, e.playouts[i] as real)
    else Sentinel
  }

  /** The scores of the first `n` moves. */
  function UctScores(e: Entry, n: nat, toMove: int, num: Numerics): (scores: seq<real>)
    requires n <= |e.playouts| && n <= |e.wins| && n <= |e.visited|
    ensures |scores| == n
    ensures forall i :: 0 <= i < n ==> scores[i] == UctScore(e, i, toMove, num)
  {
    seq(n, i requires 0 <= i < n => UctScore(e, i, toMove, num))
  }

  /** Thanks to the record invariant, an explored move's exploration term is
      well defined: the node count is at least the move count, which is at
      least 1, so log(n) / ni is not negative. */
  lemma ExplorationTermDefined(e: Entry, cap: nat, num: Numerics, i: nat)
    requires EntryInv(e, cap) && ValidNumerics(num) && i < cap && e.playouts[i] > 0
    ensures 1 <= e.playouts[i] <= e.total
    ensures 0.0 <= num.log(e.total as real) / (e.playouts[i] as real)
  {
    SumNatBound(e.playouts, i);
  }

  /** An explored move that is not taken scores in [0, sentinel). */
  lemma ExploredScoreBelowSentinel(e: Entry, cap: nat, num: Numerics, i: nat, toMove: int)
    requires EntryInv(e, cap) && ValidNumerics(num) && i < cap
    requires !e.visited[i] && e.playouts[i] > 0
    ensures 0.0 <= UctScore(e, i, toMove, num) < Sentinel
  {
    ExplorationTermDefined(e, cap, num, i);
    var ni := e.playouts[i] as real;
    RatioInUnit(e.wins[i], ni);
    assert 0.0 <= Bonus(num, e.total as real, ni) < Sentinel - 1.0;
  }

  /** The three bands of the UCT score: exactly the moves taken in this
      descent score minus the sentinel, exactly the other moves never
      played score the sentinel, and every other move scores in between,
      in [0, sentinel). */
  lemma UctScoreBands(e: Entry, cap: nat, num: Numerics, i: nat, toMove: int)
    requires EntryInv(e, cap) && ValidNumerics(num) && i < cap
    ensures UctScore(e, i, toMove, num) == -Sentinel <==> e.visited[i]
    ensures UctScore(e, i, toMove, num) == Sentinel <==> !e.visited[i] && e.playouts[i] == 0
    ensures !e.visited[i] && e.playouts[i] > 0 ==> 0.0 <= UctScore(e, i, toMove, num) < Sentinel
  {
    if !e.visited[i] && e.playouts[i] > 0 {
      ExploredScoreBelowSentinel(e, cap, num, i, toMove);
    }
  }

  /** A move never played from this node and not taken in this descent is
      chosen ahead of every explored move; among several such moves the
      lowest index wins. */
  lemma UnexploredChosenFirst(e: Entry, cap: nat, num: Numerics, n: nat, toMove: int, k: nat, best: nat)
    requires EntryInv(e, cap) && ValidNumerics(num) && n <= cap
    requires k < n && !e.visited[k] && e.playouts[k] == 0
    requires forall j :: 0 <= j < k ==> e.visited[j] || e.playouts[j] > 0
    requires IsSelected(UctScores(e, n, toMove, num), best)
    ensures best == k
  {
    var scores := UctScores(e, n, toMove, num);
    forall j | 0 <= j < n
      ensures scores[j] <= Sentinel
      ensures j < k ==> scores[j] < Sentinel
    {
      if !e.visited[j] && e.playouts[j] > 0 {
        ExploredScoreBelowSentinel(e, cap, num, j, toMove);
      }
    }
    FirstTopSelected(scores, Sentinel, k, best);
  }

  /** Backpropagation into the record of the node: the move's flag is
      cleared, the node count and the move's playout count go up by one and
      the move's win sum by the result; every other slot is kept, and so is
      the record invariant. */
  function Backprop(e: Entry, cap: nat, best: nat, res: real): (r: Entry)
    requires EntryInv(e, cap) && best < cap && 0.0 <= res <= 1.0
    ensures EntryInv(r, cap)
    ensures r.total == e.total + 1
    ensures r.playouts[best] == e.playouts[best] + 1 && r.wins[best] == e.wins[best] + res
    ensures !r.visited[best]
    ensures forall j :: 0 <= j < cap && j != best ==>
      r.playouts[j] == e.playouts[j] && r.wins[j] == e.wins[j] && r.visited[j] == e.visited[j]
  {
    SumNatIncrement(e.playouts, best);
    Entry(e.total + 1,
          e.playouts[best := e.playouts[best] + 1],
          e.wins[best := e.wins[best] + res],
          e.visited[best := false])
  }

  /** Every record of `entries` keeps the record invariant. */
  ghost predicate ValidEntries(entries: map<int, Entry>, cap: nat)
  {
    forall h :: h in entries ==> EntryInv(entries[h], cap)
  }

  /** No move of any record is marked as taken. */
  ghost predicate NoneVisited(entries: map<int, Entry>)
  {
    forall h, i :: h in entries && 0 <= i < |entries[h].visited| ==> !entries[h].visited[i]
  }

  /** Between `before` and `after` no flag of an existing record was raised:
      a flag set in `after` was already set in `before`. */
  ghost predicate OnlyCleared(before: map<int, Entry>, after: map<int, Entry>)
  {
    forall h, i :: h in before && h in after && 0 <= i < |after[h].visited| && after[h].visited[i] ==>
      i < |before[h].visited| && before[h].visited[i]
  }

  /** Completed descents leave every flag down when they started that way. */
  lemma NoneVisitedKept(before: map<int, Entry>, after: map<int, Entry>, cap: nat)
    requires NoneVisited(before) && OnlyCleared(before, after) && TableGrows(before, after, FreshEntry(cap))
    ensures NoneVisited(after)
  {
    forall h, i | h in after && 0 <= i < |after[h].visited|
      ensures !after[h].visited[i]
    {
      if h !in before {
        assert after[h] == FreshEntry(cap);
      }
    }
  }

  /** The table once move `best` of the record under `h` is marked as
      taken in this descent. */
  ghost function Marked(entries: map<int, Entry>, h: int, best: nat): map<int, Entry>
    requires h in entries && best < |entries[h].visited|
  {
    entries[h := entries[h].(visited := entries[h].visited[best := true])]
  }

  /** The bookkeeping of one level of a descent: mark move `best` of the
      record under `h`, let the deeper levels run (`below`), then
      backpropagate `res`. The table stays valid, grows as the deeper levels
      made it grow, and no flag ends up raised that was not raised before. */
  lemma DescentStep(before: map<int, Entry>, h: int, best: nat, cap: nat, below: map<int, Entry>, res: real)
    requires ValidEntries(before, cap) && h in before && best < cap && 0.0 <= res <= 1.0
    requires var mid := Marked(before, h, best);
      ValidEntries(mid, cap) && ValidEntries(below, cap) && TableGrows(mid, below, FreshEntry(cap)) && OnlyCleared(mid, below)
    ensures h in below
    ensures var after := below[h := Backprop(below[h], cap, best, res)];
      ValidEntries(after, cap) && TableGrows(before, after, FreshEntry(cap)) && OnlyCleared(before, after)
  {
    var mid := Marked(before, h, best);
    assert mid.Keys == before.Keys;
    var after := below[h := Backprop(below[h], cap, best, res)];
    assert after.Keys == below.Keys;
    forall k, i | k in before && k in after && 0 <= i < |after[k].visited| && after[k].visited[i]
      ensures i < |before[k].visited| && before[k].visited[i]
    {
      assert k in mid;
      if k == h {
        assert i != best;
        assert below[k].visited[i];
      }
    }
  }

  /** No count of record `a` is above the same count of record `b`: `b`
      has at least as many visits, and at least as many playouts of every
      move. */
  ghost predicate EntryCountsGrow(a: Entry, b: Entry)
  {
    && a.total <= b.total && |a.playouts| <= |b.playouts|
    && forall i :: 0 <= i < |a.playouts| ==> a.playouts[i] <= b.playouts[i]
  }

  /** Between `before` and `after` no record lost a key, a visit or a
      playout: every node count and every move's playout count only grew. */
  ghost predicate CountsGrow(before: map<int, Entry>, after: map<int, Entry>)
  {
    forall h :: h in before ==> h in after && EntryCountsGrow(before[h], after[h])
  }

  /** Marking a move changes no count, so counts that grew from the marked
      table grew from the table before the mark. */
  lemma MarkedCounts(before: map<int, Entry>, h: int, best: nat, below: map<int, Entry>)
    requires h in before && best < |before[h].visited|
    requires CountsGrow(Marked(before, h, best), below)
    ensures CountsGrow(before, below)
  {
    var mid := Marked(before, h, best);
    assert forall k :: k in before ==> k in mid && mid[k].total == before[k].total && mid[k].playouts == before[k].playouts;
  }

  /** Backpropagation raises the counts of the record it updates and keeps
      the others. */
  lemma BackpropCounts(before: map<int, Entry>, below: map<int, Entry>, h: int, cap: nat, best: nat, res: real)
    requires CountsGrow(before, below) && h in below && EntryInv(below[h], cap) && best < cap && 0.0 <= res <= 1.0
    ensures CountsGrow(before, below[h := Backprop(below[h], cap, best, res)])
  {
    var e := below[h];
    var r := Backprop(e, cap, best, res);
    assert EntryCountsGrow(e, r) by {
      forall i | 0 <= i < |e.playouts|
        ensures e.playouts[i] <= r.playouts[i]
      {
        if i != best {
          assert r.playouts[i] == e.playouts[i];
        }
      }
    }
    if h in before {
      var a := before[h];
      assert EntryCountsGrow(a, e);
      assert EntryCountsGrow(a, r) by {
        forall i | 0 <= i < |a.playouts|
          ensures a.playouts[i] <= r.playouts[i]
        {
          assert a.playouts[i] <= e.playouts[i];
        }
      }
    }
  }

  /** One completed descent through the record under `h` raises its node
      count by at least one: the deeper levels lower no count and the
      backpropagation adds one. */
  lemma CountedVisit(before: map<int, Entry>, h: int, best: nat, cap: nat, below: map<int, Entry>, res: real)
    requires h in before && best < |before[h].visited| && CountsGrow(Marked(before, h, best), below)
    requires h in below && EntryInv(below[h], cap) && best < cap && 0.0 <= res <= 1.0
    ensures below[h := Backprop(below[h], cap, best, res)][h].total >= before[h].total + 1
  {
    assert Marked(before, h, best)[h].total == before[h].total;
  }

  /** Every state in `us` has a record, under `hash`, in both tables, and
      its node count is higher in `after` than in `before`. */
  ghost predicate AllCounted<S>(hash: S -> int, before: map<int, Entry>, after: map<int, Entry>, us: seq<S>)
  {
    forall i :: 0 <= i < |us| ==>
      hash(us[i]) in before && hash(us[i]) in after && before[hash(us[i])].total < after[hash(us[i])].total
  }

  /** One level up: when the deeper levels counted a visit of every state
      they passed through, the level that marked `best` in the record of
      `s` (under `h`) and then backpropagates through it has counted a visit
      of `s` too. */
  lemma CountedLevel<S>(hash: S -> int, s: S, before: map<int, Entry>, h: int, best: nat, cap: nat,
                        below: map<int, Entry>, res: real, us: seq<S>)
    requires hash(s) == h && h in before && best < |before[h].visited| && CountsGrow(Marked(before, h, best), below)
    requires h in below && EntryInv(below[h], cap) && best < cap && 0.0 <= res <= 1.0
    requires AllCounted(hash, Marked(before, h, best), below, us)
    ensures AllCounted(hash, before, below[h := Backprop(below[h], cap, best, res)], [s] + us)
  {
    var after := below[h := Backprop(below[h], cap, best, res)];
    var mid := Marked(before, h, best);
    CountedVisit(before, h, best, cap, below, res);
    forall i | 0 <= i < |us|
      ensures hash(us[i]) in before && hash(us[i]) in after && before[hash(us[i])].total < after[hash(us[i])].total
    {
      var k := hash(us[i]);
      assert k in mid && mid[k].total == before[k].total;
      assert after[k].total >= below[k].total;
    }
  }

  /** `TranspositionTable`: records keyed by the hash of a state. */
  class TranspositionTable<S(!new)> {
    var entries: map<int, Entry>
    const maxLegalMoves: nat
    const hash: S -> int

    ghost predicate Valid()
      reads this
    {
      ValidEntries(entries, maxLegalMoves)
    }

    constructor (maxLegalMoves: nat, hash: S -> int)
      ensures Valid() && entries == map[]
      ensures this.maxLegalMoves == maxLegalMoves && this.hash == hash
    {
      this.maxLegalMoves := maxLegalMoves;
      this.hash := hash;
      entries := map[];
    }

    /** `look`: the record stored under the state's hash, if any. */
    function Look(s: S): Option<Entry>
      reads this
    {
      Find(entries, hash(s))
    }

    /** `add`: store a fresh record under the state's hash, replacing any
        record there. Looking the state up then finds the fresh record, and
        every state with another hash finds what it found before. */
    method Add(s: S)
      requires Valid()
      modifies this
      ensures Valid()
      ensures entries == old(entries)[hash(s) := FreshEntry(maxLegalMoves)]
      ensures Look(s) == Some(FreshEntry(maxLegalMoves))
      ensures forall s' :: hash(s') != hash(s) ==> Look(s') == old(Look(s'))
    {
      entries := entries[hash(s) := FreshEntry(maxLegalMoves)];
    }
  }

  /** `forward_playout`: play candidate moves (forward moves first, any
      legal move otherwise) chosen at random until the game ends, and report
      the end utility for the player to move at `s`, mapped to [0, 1]. */
  method ForwardPlayout<S(!new)>(g: Game<S>, s: S, steps: nat) returns (r: Result<real>, ghost ms: seq<Action>)
    requires ValidGame(g)
    ensures r.Ok? ==> IsRollout(g, s, ms) && r.value == Reward(g, Replay(g, s, ms), g.toMove(s))
    ensures r.Err? ==> r.failure == EndlessPlayout
  {
    var cur, taken := s, 0;
    ms := [];
    while !g.terminal(cur)
      invariant cur == Replay(g, s, ms) && RolloutPrefix(g, s, ms) && taken == |ms| <= steps
      decreases steps - taken
    {
      if taken == steps {
        return Err(EndlessPlayout), ms;
      }
      var moves := g.forwardActions(cur);
      if |moves| == 0 {
        moves := g.actions(cur);
      }
      assert moves == Candidates(g, cur);
      var k :| 0 <= k < |moves|;
      RolloutStep(g, s, ms, moves[k]);
      cur := g.result(cur, moves[k]);
      ms, taken := ms + [moves[k]], taken + 1;
    }
    r := Ok(Reward(g, cur, g.toMove(s)));
  }

  /** `MCTSPlayer`: `nb` descents per move over one table that lives as long
      as the player. */
  class MCTSPlayer<S(!new)> {
    const table: TranspositionTable<S>
    const nb: nat

    ghost predicate Valid()
      reads this, table
    {
      table.Valid()
    }

    constructor (nb: nat, maxLegalMoves: nat, hash: S -> int)
      ensures Valid() && fresh(table) && table.entries == map[]
      ensures this.nb == nb && table.maxLegalMoves == maxLegalMoves && table.hash == hash
    {
      this.nb := nb;
      table := new TranspositionTable(maxLegalMoves, hash);
    }

    /** What the branch of `search` for a state `s` with a record does, from
        the table `before` to the table `after`, with result `r`. `best` is
        the UCT selection on the record; the descent goes on through its
        move, which is marked taken while the deeper levels run and leave the
        table `below` with no count lowered; `path` starts with that move. A value coming back is backpropagated through `best`;
        a failure leaves the table as the deeper levels left it. */
    ghost predicate Descended(g: Game<S>, num: Numerics, s: S,
                              before: map<int, Entry>, after: map<int, Entry>,
                              r: Result<real>, best: nat, below: map<int, Entry>, path: seq<Action>)
    {
      var h, cap := table.hash(s), table.maxLegalMoves;
      && FitsCapacity(g, cap) && ValidEntries(before, cap) && h in before
      && best < |g.actions(s)|
      && IsSelected(UctScores(before[h], |g.actions(s)|, g.toMove(s), num), best)
      && path != [] && path[0] == g.actions(s)[best]
      && ValidEntries(below, cap) && h in below
      && TableGrows(Marked(before, h, best), below, FreshEntry(cap))
      && CountsGrow(Marked(before, h, best), below)
      && (r.Ok? ==>
            && 0.0 <= r.value <= 1.0
            && OnlyCleared(Marked(before, h, best), below)
            && after == below[h := Backprop(below[h], cap, best, r.value)])
      && (r.Err? ==> after == below)
    }

    /** `search`: one descent. An end state reports its value; a state with
        a record picks a move by UCT, marks it taken, descends, then clears
        the mark and backpropagates the result; a state without one gets a
        fresh record and a rollout. `depth` stands for the interpreter's
        recursion limit.

        The ghost results name what the descent did: at a state with a
        record, `best` is the move selected and `below` the table as the
        deeper levels left it; `path` is the moves the descent followed from
        `s` to `leaf`, the state where it stopped (an end state, a state
        without a record, or the depth bound), and `rollout` the moves
        played from `leaf` to the end. Only `leaf` can gain a record. */
    method Search(g: Game<S>, num: Numerics, s: S, depth: nat, steps: nat)
      returns (r: Result<real>, ghost best: nat, ghost below: map<int, Entry>,
               ghost leaf: S, ghost rollout: seq<Action>, ghost path: seq<Action>)
      requires Valid() && ValidGame(g) && ValidNumerics(num) && FitsCapacity(g, table.maxLegalMoves)
      modifies table
      ensures Valid()
      ensures TableGrows(old(table.entries), table.entries, FreshEntry(table.maxLegalMoves))
      ensures CountsGrow(old(table.entries), table.entries)
      ensures leaf == Replay(g, s, path)
      ensures table.entries.Keys <= old(table.entries).Keys + {table.hash(leaf)}
      ensures r.Ok? ==> 0.0 <= r.value <= 1.0
      ensures r.Ok? ==> OnlyCleared(old(table.entries), table.entries)
      ensures r.Ok? ==> IsRollout(g, leaf, rollout) && r.value == Reward(g, Replay(g, leaf, rollout), g.toMove(leaf))
      ensures AllRecorded(g, table.hash, old(table.entries).Keys, PathStates(g, s, path))
      ensures r.Ok? ==> AllCounted(table.hash, old(table.entries), table.entries, PathStates(g, s, path))
      ensures r.Ok? && !g.terminal(leaf) ==>
        table.hash(leaf) !in old(table.entries) && table.hash(leaf) in table.entries &&
        table.entries[table.hash(leaf)] == FreshEntry(table.maxLegalMoves)
      ensures depth == 0 ==> r == Err(RecursionLimit) && table.entries == old(table.entries) && path == []
      ensures 0 < depth && g.terminal(s) ==>
        r == Ok(Reward(g, s, g.toMove(s))) && table.entries == old(table.entries) && path == []
      ensures 0 < depth && !g.terminal(s) && table.hash(s) !in old(table.entries) ==>
        table.entries == old(table.entries)[table.hash(s) := FreshEntry(table.maxLegalMoves)] && path == []
      ensures 0 < depth && !g.terminal(s) && table.hash(s) in old(table.entries) ==>
        Descended(g, num, s, old(table.entries), table.entries, r, best, below, path)
      decreases depth, 1
    {
      best, below, leaf, rollout, path := 0, table.entries, s, [], [];
      if depth == 0 {
        r := Err(RecursionLimit);
        return;
      }
      if g.terminal(s) {
        r := Ok(Reward(g, s, g.toMove(s)));
        return;
      }
      var t := table.Look(s);
      if t.Some? {
        r, best, below, leaf, rollout, path := Descend(g, num, s, depth, steps);
      } else {
        table.Add(s);
        r, rollout := ForwardPlayout(g, s, steps);
      }
    }

    /** The branch of `search` for a state with a record. */
    method Descend(g: Game<S>, num: Numerics, s: S, depth: nat, steps: nat)
      returns (r: Result<real>, ghost best: nat, ghost below: map<int, Entry>,
               ghost leaf: S, ghost rollout: seq<Action>, ghost path: seq<Action>)
      requires Valid() && ValidGame(g) && ValidNumerics(num) && FitsCapacity(g, table.maxLegalMoves)
      requires 0 < depth && !g.terminal(s) && table.hash(s) in table.entries
      modifies table
      ensures Valid()
      ensures TableGrows(old(table.entries), table.entries, FreshEntry(table.maxLegalMoves))
      ensures CountsGrow(old(table.entries), table.entries)
      ensures leaf == Replay(g, s, path)
      ensures table.entries.Keys <= old(table.entries).Keys + {table.hash(leaf)}
      ensures r.Ok? ==> 0.0 <= r.value <= 1.0 && OnlyCleared(old(table.entries), table.entries)
      ensures r.Ok? ==> IsRollout(g, leaf, rollout) && r.value == Reward(g, Replay(g, leaf, rollout), g.toMove(leaf))
      ensures AllRecorded(g, table.hash, old(table.entries).Keys, PathStates(g, s, path))
      ensures r.Ok? ==> AllCounted(table.hash, old(table.entries), table.entries, PathStates(g, s, path))
      ensures r.Ok? && !g.terminal(leaf) ==>
        table.hash(leaf) !in old(table.entries) && table.hash(leaf) in table.entries &&
        table.entries[table.hash(leaf)] == FreshEntry(table.maxLegalMoves)
      ensures Descended(g, num, s, old(table.entries), table.entries, r, best, below, path)
      decreases depth, 0
    {
      var h, cap := table.hash(s), table.maxLegalMoves;
      var e := table.entries[h];
      var moves := g.actions(s);
      ghost var m := table.entries;
      assert EntryInv(m[h], cap);
      var b := SelectFirstBest(UctScores(e, |moves|, g.toMove(s), num));
      best := b;
      var child := g.result(s, moves[b]);
      table.entries := table.entries[h := e.(visited := e.visited[b := true])];
      assert table.entries == Marked(m, h, b);
      ghost var b', below', path';
      r, b', below', leaf, rollout, path' := Search(g, num, child, depth - 1, steps);
      below := table.entries;
      path := [moves[b]] + path';
      ReplayFirst(g, s, moves[b], path');
      PathStatesCons(g, s, moves[b], path');
      assert Marked(m, h, b).Keys == m.Keys;
      RecordedCons(g, table.hash, m.Keys, s, PathStates(g, child, path'));
      MarkedCounts(m, h, b, below);
      if r.Err? {
        return;
      }
      Commit(m, h, b, r.value);
      CountedLevel(table.hash, s, m, h, b, cap, below, r.value, PathStates(g, child, path'));
    }

    /** The last step of the branch for a state with a record: the record
        under `h` is backpropagated with the value `v` through the move
        `b`, which was marked in the table `before` the deeper levels ran. */
    method Commit(ghost before: map<int, Entry>, h: int, b: nat, v: real)
      requires Valid() && ValidEntries(before, table.maxLegalMoves) && h in before && b < table.maxLegalMoves
      requires var mid := Marked(before, h, b);
        && TableGrows(mid, table.entries, FreshEntry(table.maxLegalMoves))
        && OnlyCleared(mid, table.entries) && CountsGrow(mid, table.entries)
      requires 0.0 <= v <= 1.0
      modifies table
      ensures Valid() && h in old(table.entries)
      ensures table.entries == old(table.entries)[h := Backprop(old(table.entries)[h], table.maxLegalMoves, b, v)]
      ensures TableGrows(before, table.entries, FreshEntry(table.maxLegalMoves))
      ensures OnlyCleared(before, table.entries) && CountsGrow(before, table.entries)
    {
      var cap := table.maxLegalMoves;
      assert EntryInv(Marked(before, h, b)[h], cap);
      DescentStep(before, h, b, cap, table.entries, v);
      MarkedCounts(before, h, b, table.entries);
      BackpropCounts(before, table.entries, h, cap, b, v);
      table.entries := table.entries[h := Backprop(table.entries[h], cap, b, v)];
    }

    /** `get_action`: `nb` descents from the root, then the first root move
        with the most playouts. Fails when no descent left a root record or
        the root has no move. */
    method GetAction(g: Game<S>, num: Numerics, s: S, depth: nat, steps: nat) returns (r: Result<Action>)
      requires Valid() && ValidGame(g) && ValidNumerics(num) && FitsCapacity(g, table.maxLegalMoves)
      modifies table
      ensures Valid()
      ensures old(table.entries).Keys <= table.entries.Keys
      ensures r.Ok? && NoneVisited(old(table.entries)) ==> NoneVisited(table.entries)
      ensures r.Ok? ==>
        table.hash(s) in table.entries &&
        exists k: nat :: IsMostVisited(table.entries[table.hash(s)].playouts, |g.actions(s)|, k) && r.value == g.actions(s)[k]
      ensures |g.actions(s)| == 0 ==> r.Err?
      ensures nb == 0 && table.hash(s) !in old(table.entries) ==> r.Err?
      ensures r.Ok? && !g.terminal(s) && table.hash(s) in old(table.entries) ==>
        table.entries[table.hash(s)].total >= old(table.entries)[table.hash(s)].total + nb
      ensures r.Ok? && !g.terminal(s) && table.hash(s) !in old(table.entries) ==>
        table.entries[table.hash(s)].total + 1 >= nb
    {
      var i := 0;
      ghost var root := table.hash(s);
      while i < nb
        invariant i <= nb && Valid()
        invariant i == 0 ==> table.entries == old(table.entries)
        invariant old(table.entries).Keys <= table.entries.Keys
        invariant NoneVisited(old(table.entries)) ==> NoneVisited(table.entries)
        invariant !g.terminal(s) && root in old(table.entries) ==>
          root in table.entries && table.entries[root].total >= old(table.entries)[root].total + i
        invariant !g.terminal(s) && root !in old(table.entries) && 0 < i ==>
          root in table.entries && table.entries[root].total + 1 >= i
      {
        ghost var before := table.entries;
        ghost var best, below, leaf, rollout, path;
        var res;
        res, best, below, leaf, rollout, path := Search(g, num, s, depth, steps);
        if res.Err? {
          return Err(res.failure);
        }
        if NoneVisited(before) {
          NoneVisitedKept(before, table.entries, table.maxLegalMoves);
        }
        if !g.terminal(s) && root in before {
          CountedVisit(before, root, best, table.maxLegalMoves, below, res.value);
        }
        i := i + 1;
      }
      var t := table.Look(s);
      var moves := g.actions(s);
      if |moves| == 0 {
        return Err(NoLegalMoves);
      }
      if t.None? {
        return Err(NoRootEntry);
      }
      ghost var m, key := table.entries, table.hash(s);
      assert ValidEntries(m, table.maxLegalMoves) && key in m;
      assert EntryInv(m[key], table.maxLegalMoves);
      var k := MostVisited(t.value.playouts, |moves|);
      return Ok(moves[k]);
    }
  }
}

=== FILE: movecode.dfy ===
/** The state-independent move code shared by GRAVE's AMAF lists and PPA's
    policy: a move's step kind and its source and destination cells packed
    into one integer below 3 * L^4, for a board of side L. */
module MoveCode {
  import opened GameModel

  /** The number of distinct codes, `BoardLength**4 * 3`. */
  function CodeSpace(boardLength: nat): nat
  {
    boardLength * boardLength * boardLength * boardLength * 3
  }

  /** A move the coding is meant for: step kind 1, 2 or 3, both cells on
      the board. */
  ghost predicate OnBoard(a: Action, boardLength: nat)
  {
    && 1 <= a.stepType <= 3
    && 0 <= a.src.0 < boardLength && 0 <= a.src.1 < boardLength
    && 0 <= a.dest.0 < boardLength && 0 <= a.dest.1 < boardLength
  }

  /** Every move a game offers, forward or not, is one the coding is meant
      for. */
  ghost predicate GameOnBoard<S(!new)>(g: Game<S>, boardLength: nat)
  {
    && (forall s, a :: a in g.actions(s) ==> OnBoard(a, boardLength))
    && (forall s, a :: a in g.forwardActions(s) ==> OnBoard(a, boardLength))
  }

  /** The index of a board cell, row-major. */
  function Cell(c: (int, int), boardLength: nat): int
  {
    c.0 * boardLength + c.1
  }

  /** `tocode`: (step kind - 1) + 3 * ((src0 * L + src1) * L^2 + dest0 * L + dest1). */
  function ToCode(a: Action, boardLength: nat): (code: int)
    ensures 1 <= a.stepType <= 3 ==> code % 3 == a.stepType - 1
  {
    (a.stepType - 1) + 3 * (Cell(a.src, boardLength) * (boardLength * boardLength) + Cell(a.dest, boardLength))
  }

  /** The codes of a sequence of moves, in order. */
  function Codes(ms: seq<Action>, boardLength: nat): (cs: seq<int>)
    ensures |cs| == |ms|
    ensures forall i :: 0 <= i < |ms| ==> cs[i] == ToCode(ms[i], boardLength)
  {
    seq(|ms|, i requires 0 <= i < |ms| => ToCode(ms[i], boardLength))
  }

  /** The codes of a move list that starts with `m` start with the code of
      `m`, followed by the codes of the rest. */
  lemma CodesCons(m: Action, ms: seq<Action>, boardLength: nat)
    ensures Codes([m] + ms, boardLength) == [ToCode(m, boardLength)] + Codes(ms, boardLength)
  {
    var all := Codes([m] + ms, boardLength);
    forall i | 1 <= i < |all|
      ensures all[i] == Codes(ms, boardLength)[i - 1]
    {
      assert ([m] + ms)[i] == ms[i - 1];
    }
  }

  /** A digit below `m` plus `m` times a non-negative number below `k` is
      below `m * k`. */
  lemma DigitBound(m: int, k: int, x: int, y: int)
    requires 0 <= x < m && 0 <= y < k
    ensures 0 <= x + m * y < m * k
  {
    assert m * y <= m * (k - 1) by {
      assert m * (k - 1) - m * y == m * (k - 1 - y);
    }
  }

  /** A positive multiple of a non-negative `m` is at least `m`. */
  lemma MultipleAtLeast(m: int, d: int)
    requires 0 <= m && 1 <= d
    ensures m <= m * d
  {
    assert m * d - m == m * (d - 1);
  }

  /** A number written as a digit below `m` plus `m` times a rest has only
      one such writing. */
  lemma DigitUnique(m: int, x: int, y: int, x': int, y': int)
    requires 0 <= x < m && 0 <= x' < m
    requires x + m * y == x' + m * y'
    ensures x == x' && y == y'
  {
    if y > y' {
      assert m * (y - y') == m * y - m * y';
      MultipleAtLeast(m, y - y');
    } else if y < y' {
      assert m * (y' - y) == m * y' - m * y;
      MultipleAtLeast(m, y' - y);
    }
  }

  /** A board cell's index lies in [0, L^2). */
  lemma CellInRange(c: (int, int), boardLength: nat)
    requires 0 <= c.0 < boardLength && 0 <= c.1 < boardLength
    ensures 0 <= Cell(c, boardLength) < boardLength * boardLength
  {
    DigitBound(boardLength, boardLength, c.1, c.0);
  }

  /** The number of codes is 3 times the square of the number of cells. */
  lemma CodeSpaceSquare(boardLength: nat)
    ensures CodeSpace(boardLength) == 3 * ((boardLength * boardLength) * (boardLength * boardLength))
  {
    var l := boardLength;
    assert l * l * l * l == (l * l) * (l * l);
  }

  /** An on-board move has a code in [0, CodeSpace(L)). */
  lemma CodeInRange(a: Action, boardLength: nat)
    requires OnBoard(a, boardLength)
    ensures 0 <= ToCode(a, boardLength) < CodeSpace(boardLength)
  {
    var l := boardLength;
    var src, dest := Cell(a.src, l), Cell(a.dest, l);
    var sq := l * l;
    CellInRange(a.src, l);
    CellInRange(a.dest, l);
    DigitBound(sq, sq, dest, src);
    var pattern := dest + sq * src;
    DigitBound(3, sq * sq, a.stepType - 1, pattern);
    assert src * sq == sq * src;
    CodeSpaceSquare(l);
  }

  /** Two on-board moves with the same code have the same step kind, source
      and destination: the code identifies the move pattern. */
  lemma CodeInjective(a: Action, b: Action, boardLength: nat)
    requires OnBoard(a, boardLength) && OnBoard(b, boardLength)
    requires ToCode(a, boardLength) == ToCode(b, boardLength)
    ensures a == b
  {
    var l := boardLength;
    var srcA, destA := Cell(a.src, l), Cell(a.dest, l);
    var srcB, destB := Cell(b.src, l), Cell(b.dest, l);
    DigitBound(l, l, a.dest.1, a.dest.0);
    DigitBound(l, l, b.dest.1, b.dest.0);
    DigitBound(l, l, a.src.1, a.src.0);
    DigitBound(l, l, b.src.1, b.src.0);
    assert srcA * (l * l) == (l * l) * srcA;
    assert srcB * (l * l) == (l * l) * srcB;
    DigitUnique(3, a.stepType - 1, destA + (l * l) * srcA, b.stepType - 1, destB + (l * l) * srcB);
    DigitUnique(l * l, destA, srcA, destB, srcB);
    DigitUnique(l, a.dest.1, a.dest.0, b.dest.1, b.dest.0);
    DigitUnique(l, a.src.1, a.src.0, b.src.1, b.src.0);
  }
}

=== FILE: ppa.dfy ===
/** The Playout Policy Adaptation engine (`PPAPlayer`): the MCTS descent
    and table, with rollouts that draw each move with probability
    proportional to `exp` of a learnt policy weight of its code, and a
    policy that is adapted towards the moves of won rollouts. */
module Ppa {
  import opened GameModel
  import opened Stats
  import opened MoveCode
  import opened Mcts

  /** The board side the PPA table codes moves with (its default). */
  const PpaBoardLength: nat := 7

  /** The policy learning rate. */
  const Alpha: real := 0.32

  /** `get`: the weight stored for a code, or the given default. */
  function Lookup(p: map<int, real>, c: int, u: real): real
  {
    if c in p then p[c] else u
  }

  /** `put`: add `v` to the weight of code `c`, a code without a weight
      counting as 0. */
  function Added(p: map<int, real>, c: int, v: real): map<int, real>
  {
    if c in p then p[c := p[c] + v] else p[c := v]
  }

  /** A put gives its code a key and removes none: only `c` gains a key. */
  lemma AddedKeys(p: map<int, real>, c: int, v: real)
    ensures Added(p, c, v).Keys == p.Keys + {c}
  {
  }

  /** `get` after `put`: the code put to returns its old weight (0 when
      absent) plus the value put; every other code returns what it
      returned before, default included. */
  lemma LookupAdded(p: map<int, real>, c: int, v: real, d: int, u: real)
    ensures Lookup(Added(p, c, v), d, u) == if d == c then Lookup(p, c, 0.0) + v else Lookup(p, d, u)
  {
  }

  /** Two puts on one code are one put of the sum. */
  lemma AddedTwice(p: map<int, real>, c: int, v: real, w: real)
    ensures Added(Added(p, c, v), c, w) == Added(p, c, v + w)
  {
    var l, r := Added(Added(p, c, v), c, w), Added(p, c, v + w);
    assert l.Keys == r.Keys;
    forall k | k in l
      ensures l[k] == r[k]
    {
    }
  }

  /** Puts on two different codes can be done in either order. */
  lemma AddedCommute(p: map<int, real>, c: int, v: real, d: int, w: real)
    requires c != d
    ensures Added(Added(p, c, v), d, w) == Added(Added(p, d, w), c, v)
  {
    var l, r := Added(Added(p, c, v), d, w), Added(Added(p, d, w), c, v);
    assert l.Keys == r.Keys;
    forall k | k in l
      ensures l[k] == r[k]
    {
    }
  }

  /** `Policy`: the learnt weights, keyed by move code. */
  class Policy {
    var p: map<int, real>

    constructor ()
      ensures p == map[]
    {
      p := map[];
    }

    /** `copy.deepcopy` of a policy. */
    constructor Copy(other: Policy)
      ensures p == other.p
    {
      p := other.p;
    }

    /** `put`, in place. */
    method Put(c: int, v: real)
      modifies this
      ensures p == Added(old(p), c, v)
    {
      if c in p {
        p := p[c := p[c] + v];
      } else {
        p := p[c := v];
      }
    }
  }

  /** The weight given to a code without a policy entry: one over the
      number of moves. */
  function Uniform(n: nat): real
    requires 0 < n
  {
    1.0 / n as real
  }

  /** Every weight is positive. */
  ghost predicate Positive(ws: seq<real>)
  {
    forall i :: 0 <= i < |ws| ==> ws[i] > 0.0
  }

  /** The unnormalised probability `exp(get(code, 1 / len(moves)))` of each
      move of `moves`. */
  function Weights(p: map<int, real>, moves: seq<Action>, num: Numerics): (ws: seq<real>)
    ensures |ws| == |moves|
    ensures forall i :: 0 <= i < |moves| ==>
      ws[i] == num.exp(Lookup(p, ToCode(moves[i], PpaBoardLength), Uniform(|moves|)))
  {
    seq(|moves|, i requires 0 <= i < |moves| => num.exp(Lookup(p, ToCode(moves[i], PpaBoardLength), Uniform(|moves|))))
  }

  /** With a positive `exp`, every weight is positive. */
  lemma WeightsPositive(p: map<int, real>, moves: seq<Action>, num: Numerics)
    requires PositiveExp(num)
    ensures Positive(Weights(p, moves, num))
  {
  }

  /** The sum of the first `k` weights. */
  function PrefixSum(ws: seq<real>, k: nat): real
    requires k <= |ws|
  {
    if k == 0 then 0.0 else PrefixSum(ws, k - 1) + ws[k - 1]
  }

  /** Sums of positive weights grow strictly with the number of terms. */
  lemma {:induction false} PrefixMonotone(ws: seq<real>, j: nat, k: nat)
    requires Positive(ws) && j <= k <= |ws|
    ensures PrefixSum(ws, j) <= PrefixSum(ws, k)
    ensures j < k ==> PrefixSum(ws, j) < PrefixSum(ws, k)
    decreases k
  {
    if j < k {
      PrefixMonotone(ws, j, k - 1);
    }
  }

  /** The normaliser `z` of a non-empty move list is positive. */
  lemma NormaliserPositive(ws: seq<real>)
    requires Positive(ws) && 0 < |ws|
    ensures 0.0 < PrefixSum(ws, |ws|)
  {
    PrefixMonotone(ws, 0, |ws|);
  }

  /** The loop `for move in moves: z += exp(get(tocode(move), 1 / len(moves)))`. */
  method Normaliser(p: map<int, real>, moves: seq<Action>, num: Numerics) returns (z: real)
    ensures z == PrefixSum(Weights(p, moves, num), |moves|)
  {
    z := 0.0;
    for i := 0 to |moves|
      invariant z == PrefixSum(Weights(p, moves, num), i)
    {
      z := z + num.exp(Lookup(p, ToCode(moves[i], PpaBoardLength), Uniform(|moves|)));
    }
  }

  /** Move `k` is the one the roulette wheel takes for `stop`: the first
      whose running sum of weights reaches `stop`. */
  ghost predicate Picks(ws: seq<real>, stop: real, k: nat)
  {
    && k < |ws| && stop <= PrefixSum(ws, k + 1)
    && forall j :: 0 < j <= k ==> PrefixSum(ws, j) < stop
  }

  /** The roulette wheel of `playout`: add weights until the running sum
      reaches `stop`. A move is taken because `stop` does not exceed the
      total. */
  method Roulette(ws: seq<real>, stop: real) returns (k: nat)
    requires 0 < |ws| && stop <= PrefixSum(ws, |ws|)
    ensures Picks(ws, stop, k)
  {
    k := 0;
    var z := 0.0;
    while true
      invariant k < |ws| && z == PrefixSum(ws, k)
      invariant forall j :: 0 < j <= k ==> PrefixSum(ws, j) < stop
      decreases |ws| - k
    {
      z := z + ws[k];
      if z >= stop {
        break;
      }
      k := k + 1;
    }
  }

  /** With positive weights, the move the roulette takes is the one whose
      slice `(PrefixSum(k), PrefixSum(k + 1)]` of the wheel holds `stop`,
      and no other move's slice holds it: each move's chance is its share
      of the total weight. */
  lemma RoulettePicksSlice(ws: seq<real>, stop: real, k: nat, k': nat)
    requires Positive(ws) && 0.0 < stop && Picks(ws, stop, k) && k' < |ws|
    requires PrefixSum(ws, k') < stop <= PrefixSum(ws, k' + 1)
    ensures PrefixSum(ws, k) < stop
    ensures k == k'
  {
    if k < k' {
      PrefixMonotone(ws, k + 1, k');
    }
  }

  /** `random.random() * z` lies in [0, z) when z is positive. */
  lemma ScaledStop(u: real, z: real, stop: real)
    requires 0.0 <= u < 1.0 && 0.0 < z && stop == u * z
    ensures 0.0 <= stop < z
  {
    assert z - stop == z * (1.0 - u);
  }

  /** The penalty of the `j`-th legal move at a winner step:
      `- alpha * exp(weight) / z`. */
  function Penalty(ws: seq<real>, j: nat): real
    requires j < |ws| && PrefixSum(ws, |ws|) != 0.0
  {
    -Alpha * ws[j] / PrefixSum(ws, |ws|)
  }

  /** The share `- alpha * w / z` that the penalty loop computes for move
      `j` from its weight `w` and the normaliser `z` is that move's
      penalty. */
  lemma SharePenalty(ws: seq<real>, j: nat, w: real, z: real)
    requires Positive(ws) && j < |ws| && w == ws[j] && z == PrefixSum(ws, |ws|)
    ensures z != 0.0 && -Alpha * w / z == Penalty(ws, j)
  {
    NormaliserPositive(ws);
  }

  /** The penalties of all legal moves at a winner step, in order. */
  function Penalties(ws: seq<real>): (pens: seq<real>)
    requires Positive(ws)
    ensures |pens| == |ws|
    ensures 0 < |ws| ==> PrefixSum(ws, |ws|) != 0.0 && forall j :: 0 <= j < |ws| ==> pens[j] == Penalty(ws, j)
  {
    if ws == [] then []
    else
      NormaliserPositive(ws);
      seq(|ws|, j requires 0 <= j < |ws| => Penalty(ws, j))
  }

  /** The penalties of one winner step sum to `-alpha`: what the step adds
      to the played move's code, it takes from the legal moves in
      proportion to their weights. */
  lemma PenaltiesSumToAlpha(ws: seq<real>)
    requires Positive(ws) && 0 < |ws|
    ensures PrefixSum(Penalties(ws), |ws|) == -Alpha
  {
    NormaliserPositive(ws);
    var pens := Penalties(ws);
    PenaltyPrefix(ws, pens, |ws|);
    AlphaCancels(PrefixSum(ws, |ws|));
  }

  /** Scaling `-alpha` by `z / z` leaves it unchanged. */
  lemma AlphaCancels(z: real)
    requires z != 0.0
    ensures -Alpha * z / z == -Alpha
  {
  }

  lemma {:induction false} PenaltyPrefix(ws: seq<real>, pen: seq<real>, k: nat)
    requires Positive(ws) && 0 < |ws| && k <= |ws| && |pen| == |ws|
    requires PrefixSum(ws, |ws|) != 0.0
    requires forall j :: 0 <= j < |ws| ==> pen[j] == Penalty(ws, j)
    ensures PrefixSum(pen, k) == -Alpha * PrefixSum(ws, k) / PrefixSum(ws, |ws|)
  {
    var z := PrefixSum(ws, |ws|);
    if k > 0 {
      PenaltyPrefix(ws, pen, k - 1);
      var a, b := PrefixSum(ws, k - 1), ws[k - 1];
      assert -Alpha * a / z + -Alpha * b / z == -Alpha * (a + b) / z;
    }
  }

  /** The puts `put(codes[j], pens[j])` of the first `k` indices, done in
      order on `acc`. */
  function Charged(acc: map<int, real>, codes: seq<int>, pens: seq<real>, k: nat): map<int, real>
    requires k <= |codes| && k <= |pens|
  {
    if k == 0 then acc else Added(Charged(acc, codes, pens, k - 1), codes[k - 1], pens[k - 1])
  }

  /** One more put extends the fold. */
  lemma ChargedStep(acc: map<int, real>, codes: seq<int>, pens: seq<real>, k: nat, prev: map<int, real>, c: int, v: real)
    requires 0 < k <= |codes| && k <= |pens|
    requires prev == Charged(acc, codes, pens, k - 1) && c == codes[k - 1] && v == pens[k - 1]
    ensures Added(prev, c, v) == Charged(acc, codes, pens, k)
  {
  }

  /** A code that none of the first `k` puts names keeps its weight (or its
      absence). */
  lemma {:induction false} ChargedUntouched(acc: map<int, real>, codes: seq<int>, pens: seq<real>, k: nat, c: int)
    requires k <= |codes| && k <= |pens|
    requires forall j :: 0 <= j < k ==> codes[j] != c
    ensures c in Charged(acc, codes, pens, k) <==> c in acc
    ensures Lookup(Charged(acc, codes, pens, k), c, 0.0) == Lookup(acc, c, 0.0)
  {
    if k > 0 {
      ChargedUntouched(acc, codes, pens, k - 1, c);
    }
  }

  /** With pairwise different codes, the code of put `i` gains exactly
      `pens[i]`. */
  lemma {:induction false} ChargedOnce(acc: map<int, real>, codes: seq<int>, pens: seq<real>, k: nat, i: nat)
    requires i < k <= |codes| && k <= |pens|
    requires forall a, b :: 0 <= a < b < k ==> codes[a] != codes[b]
    ensures Lookup(Charged(acc, codes, pens, k), codes[i], 0.0) == Lookup(acc, codes[i], 0.0) + pens[i]
  {
    if i == k - 1 {
      ChargedUntouched(acc, codes, pens, k - 1, codes[i]);
    } else {
      ChargedOnce(acc, codes, pens, k - 1, i);
    }
  }

  /** The penalty puts of one winner step on the legal moves `moves`, done
      in order on `acc` for the first `k` moves, with the weights of the
      policy `p0` from before the adaptation. */
  function Penalised(p0: map<int, real>, acc: map<int, real>, moves: seq<Action>, num: Numerics, k: nat): map<int, real>
    requires PositiveExp(num) && k <= |moves|
  {
    if k == 0 then acc
    else
      var ws := Weights(p0, moves, num);
      WeightsPositive(p0, moves, num);
      NormaliserPositive(ws);
      Added(Penalised(p0, acc, moves, num, k - 1), ToCode(moves[k - 1], PpaBoardLength), Penalty(ws, k - 1))
  }

  /** The penalty puts are the puts of the move codes with the penalties. */
  lemma {:induction false} PenalisedIsCharged(p0: map<int, real>, acc: map<int, real>, moves: seq<Action>, num: Numerics, k: nat)
    requires PositiveExp(num) && k <= |moves|
    ensures Positive(Weights(p0, moves, num))
    ensures Penalised(p0, acc, moves, num, k) == Charged(acc, Codes(moves, PpaBoardLength), Penalties(Weights(p0, moves, num)), k)
  {
    WeightsPositive(p0, moves, num);
    if k > 0 {
      var ws := Weights(p0, moves, num);
      var codes, pens := Codes(moves, PpaBoardLength), Penalties(ws);
      PenalisedIsCharged(p0, acc, moves, num, k - 1);
      ChargedStep(acc, codes, pens, k, Charged(acc, codes, pens, k - 1), ToCode(moves[k - 1], PpaBoardLength), Penalty(ws, k - 1));
    }
  }

  /** The penalty puts only add keys: every code with a weight keeps one. */
  lemma {:induction false} PenalisedKeys(p0: map<int, real>, acc: map<int, real>, moves: seq<Action>, num: Numerics, k: nat)
    requires PositiveExp(num) && k <= |moves|
    ensures acc.Keys <= Penalised(p0, acc, moves, num, k).Keys
  {
    if k > 0 {
      PenalisedKeys(p0, acc, moves, num, k - 1);
    }
  }

  /** A code of none of the first `k` moves keeps its weight (or its
      absence). */
  lemma PenalisedUntouched(p0: map<int, real>, acc: map<int, real>, moves: seq<Action>, num: Numerics, k: nat, c: int)
    requires PositiveExp(num) && k <= |moves|
    requires forall j :: 0 <= j < k ==> ToCode(moves[j], PpaBoardLength) != c
    ensures c in Penalised(p0, acc, moves, num, k) <==> c in acc
    ensures Lookup(Penalised(p0, acc, moves, num, k), c, 0.0) == Lookup(acc, c, 0.0)
  {
    PenalisedIsCharged(p0, acc, moves, num, k);
    ChargedUntouched(acc, Codes(moves, PpaBoardLength), Penalties(Weights(p0, moves, num)), k, c);
  }

  /** When the legal moves have pairwise different codes, the code of move
      `i` is charged exactly its penalty. */
  lemma PenalisedCharged(p0: map<int, real>, acc: map<int, real>, moves: seq<Action>, num: Numerics, k: nat, i: nat)
    requires PositiveExp(num) && i < k <= |moves|
    requires forall a, b :: 0 <= a < b < |moves| ==> ToCode(moves[a], PpaBoardLength) != ToCode(moves[b], PpaBoardLength)
    ensures PrefixSum(Weights(p0, moves, num), |moves|) != 0.0
    ensures Lookup(Penalised(p0, acc, moves, num, k), ToCode(moves[i], PpaBoardLength), 0.0)
         == Lookup(acc, ToCode(moves[i], PpaBoardLength), 0.0) + Penalty(Weights(p0, moves, num), i)
  {
    PenalisedIsCharged(p0, acc, moves, num, k);
    ChargedOnce(acc, Codes(moves, PpaBoardLength), Penalties(Weights(p0, moves, num)), k, i);
  }

  /** One move of the winner in `adapt`: alpha on the played move's code,
      then the penalties on every legal move of the state. */
  function WinnerStep<S>(p0: map<int, real>, acc: map<int, real>, g: Game<S>, cur: S, m: Action, num: Numerics): (q: map<int, real>)
    requires PositiveExp(num)
    ensures acc.Keys <= q.Keys && ToCode(m, PpaBoardLength) in q
  {
    PenalisedKeys(p0, Added(acc, ToCode(m, PpaBoardLength), Alpha), g.actions(cur), num, |g.actions(cur)|);
    Penalised(p0, Added(acc, ToCode(m, PpaBoardLength), Alpha), g.actions(cur), num, |g.actions(cur)|)
  }

  /** With positive weights, one weight out of two or more is below the
      total. */
  lemma {:induction false} WeightBelowTotal(ws: seq<real>, i: nat, k: nat)
    requires Positive(ws) && i < k <= |ws| && 2 <= k
    ensures ws[i] < PrefixSum(ws, k)
    decreases k
  {
    if i == k - 1 {
      PrefixMonotone(ws, 0, k - 1);
    } else if i < k - 2 {
      WeightBelowTotal(ws, i, k - 1);
    } else {
      assert PrefixSum(ws, k - 1) == PrefixSum(ws, k - 2) + ws[i];
      PrefixMonotone(ws, 0, k - 2);
    }
  }

  /** A winner step raises the weight of the move the winner played, when
      that move is one of two or more legal moves with pairwise different
      codes: it gains alpha and loses only its share of alpha. */
  lemma WinnerStepRaisesPlayed<S>(p0: map<int, real>, acc: map<int, real>, g: Game<S>, cur: S, i: nat, num: Numerics)
    requires PositiveExp(num) && i < |g.actions(cur)| && 2 <= |g.actions(cur)|
    requires forall a, b :: 0 <= a < b < |g.actions(cur)| ==>
      ToCode(g.actions(cur)[a], PpaBoardLength) != ToCode(g.actions(cur)[b], PpaBoardLength)
    ensures var c := ToCode(g.actions(cur)[i], PpaBoardLength);
      Lookup(WinnerStep(p0, acc, g, cur, g.actions(cur)[i], num), c, 0.0) > Lookup(acc, c, 0.0)
  {
    var moves := g.actions(cur);
    var c := ToCode(moves[i], PpaBoardLength);
    WeightsPositive(p0, moves, num);
    PenalisedCharged(p0, Added(acc, c, Alpha), moves, num, |moves|, i);
    PenaltyBelowAlpha(Weights(p0, moves, num), i);
  }

  /** The penalty of one of two or more moves is smaller than alpha. */
  lemma PenaltyBelowAlpha(ws: seq<real>, i: nat)
    requires Positive(ws) && i < |ws| && 2 <= |ws|
    ensures PrefixSum(ws, |ws|) != 0.0
    ensures 0.0 < Alpha + Penalty(ws, i)
  {
    WeightBelowTotal(ws, i, |ws|);
    var z := PrefixSum(ws, |ws|);
    var share := ws[i] / z;
    assert share * z == ws[i];
    RatioInUnit(ws[i], z);
    assert share != 1.0;
    assert Penalty(ws, i) == -Alpha * share;
  }

  /** The policy `adapt` computes from `acc` for the rest `ms` of a
      playout replayed from `cur` with `pl` to move: at each move of the
      winner, alpha is put on the played move's code and every legal move
      of the state is penalised; then the move is played and the other
      player is to move. */
  function AdaptWalk<S>(p0: map<int, real>, acc: map<int, real>, g: Game<S>, cur: S, pl: int, winner: int,
                        ms: seq<Action>, num: Numerics): (q: map<int, real>)
    requires PositiveExp(num)
    ensures acc.Keys <= q.Keys
    decreases |ms|
  {
    if ms == [] then acc
    else
      var acc' := if pl == winner then WinnerStep(p0, acc, g, cur, ms[0], num) else acc;
      AdaptWalk(p0, acc', g, g.result(cur, ms[0]), 3 - pl, winner, ms[1..], num)
  }

  /** The player to move `i` moves after `pl`. */
  function Turn(pl: int, i: nat): int
  {
    if i % 2 == 0 then pl else 3 - pl
  }

  /** One move later the other player is to move. */
  lemma TurnShift(pl: int, i: nat)
    ensures Turn(3 - pl, i) == Turn(pl, i + 1)
  {
  }

  /** After `adapt`, the code of every move the winner played has a
      weight. */
  lemma {:induction false} AdaptWalkCovers<S>(p0: map<int, real>, acc: map<int, real>, g: Game<S>, cur: S, pl: int, winner: int,
                                               ms: seq<Action>, num: Numerics, i: nat)
    requires PositiveExp(num) && i < |ms| && Turn(pl, i) == winner
    ensures ToCode(ms[i], PpaBoardLength) in AdaptWalk(p0, acc, g, cur, pl, winner, ms, num)
    decreases |ms|
  {
    var acc' := if pl == winner then WinnerStep(p0, acc, g, cur, ms[0], num) else acc;
    if i > 0 {
      TurnShift(pl, i - 1);
      AdaptWalkCovers(p0, acc', g, g.result(cur, ms[0]), 3 - pl, winner, ms[1..], num, i - 1);
      assert ms[1..][i - 1] == ms[i];
    }
  }

  /** A playout in which the winner never moves leaves the policy as it
      was. */
  lemma {:induction false} AdaptWalkIdle<S>(p0: map<int, real>, acc: map<int, real>, g: Game<S>, cur: S, pl: int, winner: int,
                                            ms: seq<Action>, num: Numerics)
    requires PositiveExp(num)
    requires forall i :: 0 <= i < |ms| ==> Turn(pl, i) != winner
    ensures AdaptWalk(p0, acc, g, cur, pl, winner, ms, num) == acc
    decreases |ms|
  {
    if ms != [] {
      assert Turn(pl, 0) != winner;
      var other := 3 - pl;
      forall i | 0 <= i < |ms[1..]|
        ensures Turn(other, i) != winner
      {
        assert Turn(pl, i + 1) != winner;
        TurnShift(pl, i);
      }
      AdaptWalkIdle(p0, acc, g, g.result(cur, ms[0]), other, winner, ms[1..], num);
    }
  }

  /** The policy after `adapt` has run on each rollout of `rollouts` in
      turn, each replayed from `s` with `pl` to move and player 1 as the
      winner. Adapting on no rollout leaves the policy as it was. */
  function AdaptAll<S>(p: map<int, real>, g: Game<S>, s: S, pl: int, rollouts: seq<seq<Action>>, num: Numerics): (q: map<int, real>)
    requires PositiveExp(num)
    ensures p.Keys <= q.Keys
    ensures rollouts == [] ==> q == p
    decreases |rollouts|
  {
    if rollouts == [] then p
    else
      var before := AdaptAll(p, g, s, pl, rollouts[..|rollouts| - 1], num);
      AdaptWalk(before, before, g, s, pl, 1, rollouts[|rollouts| - 1], num)
  }

  /** The penalty loop of a winner step on the policy copy `polp`, with
      the weights of `p0`: every legal move's code is charged its share of
      alpha. */
  method Penalise(polp: Policy, p0: map<int, real>, possible: seq<Action>, num: Numerics)
    requires PositiveExp(num)
    modifies polp
    ensures polp.p == Penalised(p0, old(polp.p), possible, num, |possible|)
  {
    var z := Normaliser(p0, possible, num);
    ghost var ws := Weights(p0, possible, num);
    WeightsPositive(p0, possible, num);
    ghost var start := polp.p;
    for j := 0 to |possible|
      invariant polp.p == Penalised(p0, start, possible, num, j)
    {
      var c := ToCode(possible[j], PpaBoardLength);
      var w := num.exp(Lookup(p0, c, Uniform(|possible|)));
      SharePenalty(ws, j, w, z);
      var pen := -Alpha * w / z;
      assert Penalised(p0, start, possible, num, j + 1) == Added(Penalised(p0, start, possible, num, j), c, pen);
      polp.Put(c, pen);
    }
  }

  /** What a PPA descent returns: a bare value (an end state was reached
      directly) or a value together with the moves of the rollout. */
  datatype SearchValue = Bare(value: real) | Played(value: real, moves: seq<Action>)

  /** The update a descent still makes before it fails on a bare value
      from the level below: the flag is cleared and the counts go up, the win sum
      is not touched. The record invariant is kept. */
  function Interrupted(e: Entry, cap: nat, best: nat): (r: Entry)
    requires EntryInv(e, cap) && best < cap
    ensures EntryInv(r, cap)
    ensures r.total == e.total + 1 && r.playouts[best] == e.playouts[best] + 1
    ensures r.wins == e.wins && !r.visited[best]
    ensures forall j :: 0 <= j < cap && j != best ==> r.playouts[j] == e.playouts[j] && r.visited[j] == e.visited[j]
  {
    SumNatIncrement(e.playouts, best);
    e.(total := e.total + 1,
       playouts := e.playouts[best := e.playouts[best] + 1],
       visited := e.visited[best := false])
  }

  /** The rollouts among the values `runs` of a sequence of descents that
      the policy is adapted to: those played out and won, in order. */
  ghost function WonRollouts(runs: seq<SearchValue>): (won: seq<seq<Action>>)
    ensures |won| <= |runs|
  {
    if runs == [] then []
    else
      var last := runs[|runs| - 1];
      WonRollouts(runs[..|runs| - 1]) + (if last.Played? && last.value == 1.0 then [last.moves] else [])
  }

  /** The state of `get_action` after some rounds: `runs` are the values
      of the descents; `adapted` are the won rollouts among
      them, each a complete rollout from the matching state of `leaves` that
      ended with utility 1 for the player to move there; and the policy
      weights `p` are `p0` adapted to them in order. */
  ghost predicate Rounds<S(!new)>(g: Game<S>, num: Numerics, s: S, pl: int, p0: map<int, real>, p: map<int, real>,
                            runs: seq<SearchValue>, adapted: seq<seq<Action>>, leaves: seq<S>)
    requires ValidGame(g) && PositiveExp(num)
  {
    && adapted == WonRollouts(runs)
    && |adapted| == |leaves|
    && (forall j :: 0 <= j < |adapted| ==>
          IsRollout(g, leaves[j], adapted[j]) && Reward(g, Replay(g, leaves[j], adapted[j]), g.toMove(leaves[j])) == 1.0)
    && p == AdaptAll(p0, g, s, pl, adapted, num)
  }

  /** Every played-out run of value 1 has its rollout among the won ones,
      and there are none when no run has value 1. */
  lemma {:induction false} WonRolloutsExactly(runs: seq<SearchValue>)
    ensures forall k :: 0 <= k < |runs| && runs[k].Played? && runs[k].value == 1.0 ==> runs[k].moves in WonRollouts(runs)
    ensures (forall k :: 0 <= k < |runs| ==> runs[k].value != 1.0) ==> WonRollouts(runs) == []
    decreases |runs|
  {
    if runs != [] {
      var init := runs[..|runs| - 1];
      WonRolloutsExactly(init);
      forall k | 0 <= k < |init| ensures init[k] == runs[k] { }
    }
  }

  /** Where the values `runs` of a sequence of descents from `s` come
      from: the `j`-th descent followed `paths[j]` to `leaves[j]`, played a
      complete rollout from there, and its value is the reward of the end
      state it reached for the player to move at `leaves[j]`. */
  ghost predicate RunsFrom<S(!new)>(g: Game<S>, s: S, runs: seq<SearchValue>, leaves: seq<S>, paths: seq<seq<Action>>)
    requires ValidGame(g)
  {
    && |leaves| == |runs| && |paths| == |runs|
    && forall j :: 0 <= j < |runs| ==>
         && runs[j].Played? && leaves[j] == Replay(g, s, paths[j])
         && IsRollout(g, leaves[j], runs[j].moves)
         && runs[j].value == Reward(g, Replay(g, leaves[j], runs[j].moves), g.toMove(leaves[j]))
  }

  /** One more descent from `s`, along `path` to `leaf` and played out from there. */
  lemma RunsFromStep<S(!new)>(g: Game<S>, s: S, runs: seq<SearchValue>, leaves: seq<S>, paths: seq<seq<Action>>,
                              v: SearchValue, leaf: S, path: seq<Action>)
    requires ValidGame(g) && RunsFrom(g, s, runs, leaves, paths)
    requires v.Played? && leaf == Replay(g, s, path) && IsRollout(g, leaf, v.moves)
    requires v.value == Reward(g, Replay(g, leaf, v.moves), g.toMove(leaf))
    ensures RunsFrom(g, s, runs + [v], leaves + [leaf], paths + [path])
  {
    var runs', leaves', paths' := runs + [v], leaves + [leaf], paths + [path];
    forall j | 0 <= j < |runs'|
      ensures runs'[j].Played? && leaves'[j] == Replay(g, s, paths'[j]) && IsRollout(g, leaves'[j], runs'[j].moves)
      ensures runs'[j].value == Reward(g, Replay(g, leaves'[j], runs'[j].moves), g.toMove(leaves'[j]))
    {
      if j < |runs| {
        assert runs'[j] == runs[j] && leaves'[j] == leaves[j] && paths'[j] == paths[j];
      }
    }
  }

  /** One more round: a played-out rollout `v` from `leaf` is appended to
      the runs, and to the adapted rollouts exactly when it was won, in
      which case the policy is adapted to it. */
  lemma RoundsStep<S(!new)>(g: Game<S>, num: Numerics, s: S, pl: int, p0: map<int, real>, p: map<int, real>,
                      p': map<int, real>, runs: seq<SearchValue>, adapted: seq<seq<Action>>, leaves: seq<S>,
                      v: SearchValue, leaf: S)
    requires ValidGame(g) && PositiveExp(num)
    requires Rounds(g, num, s, pl, p0, p, runs, adapted, leaves)
    requires v.Played? && IsRollout(g, leaf, v.moves) && v.value == Reward(g, Replay(g, leaf, v.moves), g.toMove(leaf))
    requires p' == if v.value == 1.0 then AdaptWalk(p, p, g, s, pl, 1, v.moves, num) else p
    ensures var won := v.value == 1.0;
      Rounds(g, num, s, pl, p0, p', runs + [v],
             if won then adapted + [v.moves] else adapted, if won then leaves + [leaf] else leaves)
  {
    var won := v.value == 1.0;
    var runs' := runs + [v];
    var adapted' := if won then adapted + [v.moves] else adapted;
    var leaves' := if won then leaves + [leaf] else leaves;
    assert runs'[..|runs|] == runs;
    assert adapted' == WonRollouts(runs');
    if won {
      assert adapted'[..|adapted|] == adapted;
      assert p' == AdaptAll(p0, g, s, pl, adapted', num);
      forall j | 0 <= j < |adapted'|
        ensures IsRollout(g, leaves'[j], adapted'[j])
        ensures Reward(g, Replay(g, leaves'[j], adapted'[j]), g.toMove(leaves'[j])) == 1.0
      {
        if j < |adapted| {
          assert adapted'[j] == adapted[j] && leaves'[j] == leaves[j];
        }
      }
    }
  }

  /** The table after a descent that reached an end state right below the
      record `h` is valid, has the same keys and lowers no count. */
  lemma InterruptedStep(before: map<int, Entry>, h: int, best: nat, cap: nat)
    requires ValidEntries(before, cap) && h in before && best < cap
    ensures var e := before[h]; var mid := before[h := e.(visited := e.visited[best := true])];
      var after := mid[h := Interrupted(mid[h], cap, best)];
      ValidEntries(after, cap) && TableGrows(before, after, FreshEntry(cap)) && CountsGrow(before, after)
  {
    var e := before[h];
    var mid := before[h := e.(visited := e.visited[best := true])];
    var after := mid[h := Interrupted(mid[h], cap, best)];
    assert after.Keys == before.Keys;
    var r := after[h];
    assert EntryCountsGrow(e, r) by {
      forall i | 0 <= i < |e.playouts|
        ensures e.playouts[i] <= r.playouts[i]
      {
        if i != best {
          assert r.playouts[i] == e.playouts[i];
        }
      }
    }
  }

  /** `PPAPlayer`: `nb` descents per move, the MCTS table, and a policy
      that outlives each move choice. */
  class PPAPlayer<S(!new)> {
    const table: TranspositionTable<S>
    var policy: Policy
    const nb: nat
    const player: int

    ghost predicate Valid()
      reads this, table
    {
      table.Valid()
    }

    constructor (nb: nat, player: int, maxLegalMoves: nat, hash: S -> int)
      ensures Valid() && fresh(table) && fresh(policy) && table.entries == map[] && policy.p == map[]
      ensures this.nb == nb && this.player == player
      ensures table.maxLegalMoves == maxLegalMoves && table.hash == hash
    {
      this.nb := nb;
      this.player := player;
      table := new TranspositionTable(maxLegalMoves, hash);
      policy := new Policy();
    }

    /** One draw of `playout`: the normaliser `z` of the weights of
        `moves`, a uniform number in [0, 1) scaled by `z`, and the roulette
        wheel. */
    method DrawMove(num: Numerics, moves: seq<Action>) returns (k: nat)
      requires PositiveExp(num) && 0 < |moves|
      ensures k < |moves|
      ensures exists stop ::
        (0.0 <= stop < PrefixSum(Weights(policy.p, moves, num), |moves|) && Picks(Weights(policy.p, moves, num), stop, k))
    {
      var z := Normaliser(policy.p, moves, num);
      var ws := Weights(policy.p, moves, num);
      WeightsPositive(policy.p, moves, num);
      NormaliserPositive(ws);
      var u: real :| 0.0 <= u < 1.0;
      var stop := u * z;
      ScaledStop(u, z, stop);
      k := Roulette(ws, stop);
    }

    /** `playout`: from `s`, draw candidate moves by the roulette wheel over
        the policy weights until the game ends; report the end utility for
        the player to move at `s`, mapped to [0, 1], and the moves drawn. */
    method Playout(g: Game<S>, num: Numerics, s: S, steps: nat) returns (r: Result<(real, seq<Action>)>)
      requires ValidGame(g) && PositiveExp(num)
      ensures r.Ok? ==> IsRollout(g, s, r.value.1)
      ensures r.Ok? ==> r.value.0 == Reward(g, Replay(g, s, r.value.1), g.toMove(s))
      ensures r.Err? ==> r.failure == EndlessPlayout
    {
      var cur, taken := s, 0;
      var played: seq<Action> := [];
      while !g.terminal(cur)
        invariant cur == Replay(g, s, played) && RolloutPrefix(g, s, played) && taken == |played| <= steps
        decreases steps - taken
      {
        if taken == steps {
          return Err(EndlessPlayout);
        }
        var moves := g.forwardActions(cur);
        if |moves| == 0 {
          moves := g.actions(cur);
        }
        assert moves == Candidates(g, cur);
        var k := DrawMove(num, moves);
        RolloutStep(g, s, played, moves[k]);
        cur := g.result(cur, moves[k]);
        played, taken := played + [moves[k]], taken + 1;
      }
      r := Ok((Reward(g, cur, g.toMove(s)), played));
    }

    /** `adapt`: replay `playout` from `s` with `pl` to move and adapt a
        copy of the policy at each move of `winner` (the weights come from
        the policy as it was before); the copy then becomes the policy. */
    method Adapt(g: Game<S>, num: Numerics, winner: int, pl: int, s: S, playout: seq<Action>)
      requires PositiveExp(num)
      modifies this
      ensures policy.p == AdaptWalk(old(policy.p), old(policy.p), g, s, pl, winner, playout, num)
    {
      var p0 := policy.p;
      var polp := new Policy.Copy(policy);
      var cur, turn := s, pl;
      for i := 0 to |playout|
        invariant fresh(polp) && polp != policy && policy.p == p0
        invariant AdaptWalk(p0, polp.p, g, cur, turn, winner, playout[i..], num)
               == AdaptWalk(p0, p0, g, s, pl, winner, playout, num)
      {
        var move := playout[i];
        ghost var acc := polp.p;
        if turn == winner {
          polp.Put(ToCode(move, PpaBoardLength), Alpha);
          Penalise(polp, policy.p, g.actions(cur), num);
          assert polp.p == WinnerStep(p0, acc, g, cur, move, num);
        }
        assert playout[i..][0] == move && playout[i..][1..] == playout[i + 1..];
        cur := g.result(cur, move);
        turn := 3 - turn;
      }
      assert playout[|playout|..] == [];
      policy := polp;
    }

    /** What the branch of `search` for a state `s` with a record does, from
        the table `before` to the table `after`, with result `r`. `best` is
        the UCT selection on the record, whose move is marked taken before
        the deeper levels run and leave the table `below` with no count
        lowered; `path` starts with that move. A rollout value
        coming back is backpropagated through `best`. An end state right
        below (when the recursion bound allows reaching it) makes the
        descent fail after the partial update; any other failure leaves the
        table as the deeper levels left it. */
    ghost predicate Descended(g: Game<S>, num: Numerics, s: S, depth: nat,
                              before: map<int, Entry>, after: map<int, Entry>,
                              r: Result<SearchValue>, best: nat, below: map<int, Entry>, path: seq<Action>)
    {
      var h, cap := table.hash(s), table.maxLegalMoves;
      && FitsCapacity(g, cap) && ValidEntries(before, cap) && h in before
      && best < |g.actions(s)|
      && IsSelected(UctScores(before[h], |g.actions(s)|, g.toMove(s), num), best)
      && path != [] && path[0] == g.actions(s)[best]
      && ValidEntries(below, cap) && h in below
      && TableGrows(Marked(before, h, best), below, FreshEntry(cap))
      && CountsGrow(Marked(before, h, best), below)
      && var endBelow := 1 < depth && g.terminal(g.result(s, g.actions(s)[best]));
         && (r.Ok? ==>
               && r.value.Played? && 0.0 <= r.value.value <= 1.0
               && OnlyCleared(Marked(before, h, best), below)
               && after == below[h := Backprop(below[h], cap, best, r.value.value)])
         && (endBelow ==>
               && r == Err(NotSubscriptable) && below == Marked(before, h, best)
               && after == below[h := Interrupted(below[h], cap, best)])
         && (r.Err? && !endBelow ==> after == below)
    }

    /** `search`: the MCTS descent with policy rollouts. An end state
        reports a bare value; a state without a record gets one and a
        rollout; a state with a record selects by UCT, marks the move,
        descends, and on return clears the mark and counts the visit. A bare
        value from below cannot be indexed: the descent fails there, after
        the counts went up and before the win sum is updated, and leaves the
        marks of the levels above raised.

        The ghost results name what the descent did: at a state with a
        record, `best` is the move selected and `below` the table as the
        deeper levels left it; `path` is the moves the descent followed from
        `s` to `leaf`, the state where it stopped (an end state, a state
        without a record, from which the rollout is played, or the depth
        bound). Only `leaf` can gain a record. */
    method Search(g: Game<S>, num: Numerics, s: S, depth: nat, steps: nat)
      returns (r: Result<SearchValue>, ghost best: nat, ghost below: map<int, Entry>, ghost leaf: S, ghost path: seq<Action>)
      requires Valid() && ValidGame(g) && ValidNumerics(num) && FitsCapacity(g, table.maxLegalMoves)
      modifies table
      ensures Valid()
      ensures TableGrows(old(table.entries), table.entries, FreshEntry(table.maxLegalMoves))
      ensures CountsGrow(old(table.entries), table.entries)
      ensures leaf == Replay(g, s, path)
      ensures table.entries.Keys <= old(table.entries).Keys + {table.hash(leaf)}
      ensures r.Ok? ==> 0.0 <= r.value.value <= 1.0
      ensures r.Ok? ==> OnlyCleared(old(table.entries), table.entries)
      ensures r.Ok? && r.value.Bare? ==> g.terminal(s) && table.entries == old(table.entries)
      ensures r.Ok? && r.value.Played? ==>
        IsRollout(g, leaf, r.value.moves) && r.value.value == Reward(g, Replay(g, leaf, r.value.moves), g.toMove(leaf))
      ensures AllRecorded(g, table.hash, old(table.entries).Keys, PathStates(g, s, path))
      ensures r.Ok? ==> AllCounted(table.hash, old(table.entries), table.entries, PathStates(g, s, path))
      ensures r.Ok? && !g.terminal(leaf) ==>
        table.hash(leaf) !in old(table.entries) && table.hash(leaf) in table.entries &&
        table.entries[table.hash(leaf)] == FreshEntry(table.maxLegalMoves)
      ensures depth == 0 ==> r == Err(RecursionLimit) && table.entries == old(table.entries) && path == []
      ensures 0 < depth && g.terminal(s) ==>
        r == Ok(Bare(Reward(g, s, g.toMove(s)))) && table.entries == old(table.entries) && path == []
      ensures 0 < depth && !g.terminal(s) && table.hash(s) !in old(table.entries) ==>
        table.entries == old(table.entries)[table.hash(s) := FreshEntry(table.maxLegalMoves)] &&
        path == [] && (r.Ok? ==> r.value.Played?)
      ensures 0 < depth && !g.terminal(s) && table.hash(s) in old(table.entries) ==>
        Descended(g, num, s, depth, old(table.entries), table.entries, r, best, below, path)
      decreases depth, 1
    {
      best, below, leaf, path := 0, table.entries, s, [];
      if depth == 0 {
        r := Err(RecursionLimit);
        return;
      }
      if g.terminal(s) {
        r := Ok(Bare(Reward(g, s, g.toMove(s))));
        return;
      }
      var t := table.Look(s);
      if t.Some? {
        r, best, below, leaf, path := Descend(g, num, s, depth, steps);
      } else {
        table.Add(s);
        var p := Playout(g, num, s, steps);
        if p.Err? {
          r := Err(p.failure);
          return;
        }
        r := Ok(Played(p.value.0, p.value.1));
      }
    }

    /** The branch of `search` for a state with a record. */
    method Descend(g: Game<S>, num: Numerics, s: S, depth: nat, steps: nat)
      returns (r: Result<SearchValue>, ghost best: nat, ghost below: map<int, Entry>, ghost leaf: S, ghost path: seq<Action>)
      requires Valid() && ValidGame(g) && ValidNumerics(num) && FitsCapacity(g, table.maxLegalMoves)
      requires 0 < depth && !g.terminal(s) && table.hash(s) in table.entries
      modifies table
      ensures Valid()
      ensures TableGrows(old(table.entries), table.entries, FreshEntry(table.maxLegalMoves))
      ensures CountsGrow(old(table.entries), table.entries)
      ensures leaf == Replay(g, s, path)
      ensures table.entries.Keys <= old(table.entries).Keys + {table.hash(leaf)}
      ensures r.Ok? ==> r.value.Played? && 0.0 <= r.value.value <= 1.0
      ensures r.Ok? ==> OnlyCleared(old(table.entries), table.entries)
      ensures r.Ok? ==>
        IsRollout(g, leaf, r.value.moves) && r.value.value == Reward(g, Replay(g, leaf, r.value.moves), g.toMove(leaf))
      ensures AllRecorded(g, table.hash, old(table.entries).Keys, PathStates(g, s, path))
      ensures r.Ok? ==> AllCounted(table.hash, old(table.entries), table.entries, PathStates(g, s, path))
      ensures r.Ok? && !g.terminal(leaf) ==>
        table.hash(leaf) !in old(table.entries) && table.hash(leaf) in table.entries &&
        table.entries[table.hash(leaf)] == FreshEntry(table.maxLegalMoves)
      ensures Descended(g, num, s, depth, old(table.entries), table.entries, r, best, below, path)
      decreases depth, 0
    {
      var h, cap := table.hash(s), table.maxLegalMoves;
      var e := table.entries[h];
      var moves := g.actions(s);
      ghost var m := table.entries;
      assert EntryInv(m[h], cap);
      var b := SelectFirstBest(UctScores(e, |moves|, g.toMove(s), num));
      best := b;
      var child := g.result(s, moves[b]);
      table.entries := table.entries[h := e.(visited := e.visited[b := true])];
      assert table.entries == Marked(m, h, b);
      ghost var b', below', path';
      r, b', below', leaf, path' := Search(g, num, child, depth - 1, steps);
      below := table.entries;
      path := [moves[b]] + path';
      ReplayFirst(g, s, moves[b], path');
      PathStatesCons(g, s, moves[b], path');
      assert Marked(m, h, b).Keys == m.Keys;
      RecordedCons(g, table.hash, m.Keys, s, PathStates(g, child, path'));
      MarkedCounts(m, h, b, below);
      if r.Err? {
        return;
      }
      if r.value.Bare? {
        InterruptedStep(m, h, b, cap);
        table.entries := table.entries[h := Interrupted(table.entries[h], cap, b)];
        r := Err(NotSubscriptable);
        return;
      }
      Commit(m, h, b, r.value.value);
      CountedLevel(table.hash, s, m, h, b, cap, below, r.value.value, PathStates(g, child, path'));
    }

    /** The last step of the branch for a state with a record: the record
        under `h` is backpropagated with the value `v` through the move
        `b`, which was marked in the table `before` the deeper levels ran. */
    method Commit(ghost before: map<int, Entry>, h: int, b: nat, v: real)
      requires Valid() && ValidEntries(before, table.maxLegalMoves) && h in before && b < table.maxLegalMoves
      requires var mid := Marked(before, h, b);
        && TableGrows(mid, table.entries, FreshEntry(table.maxLegalMoves))
        && OnlyCleared(mid, table.entries) && CountsGrow(mid, table.entries)
      requires 0.0 <= v <= 1.0
      modifies table
      ensures Valid() && h in old(table.entries)
      ensures table.entries == old(table.entries)[h := Backprop(old(table.entries)[h], table.maxLegalMoves, b, v)]
      ensures TableGrows(before, table.entries, FreshEntry(table.maxLegalMoves))
      ensures OnlyCleared(before, table.entries) && CountsGrow(before, table.entries)
    {
      var cap := table.maxLegalMoves;
      assert EntryInv(Marked(before, h, b)[h], cap);
      DescentStep(before, h, b, cap, table.entries, v);
      MarkedCounts(before, h, b, table.entries);
      BackpropCounts(before, table.entries, h, cap, b, v);
      table.entries := table.entries[h := Backprop(table.entries[h], cap, b, v)];
    }

    /** One round of `get_action`: a descent from the root `s`, whose value
        must be a played-out rollout (a bare value cannot be indexed and
        fails), then the adaptation of the policy to that rollout when it
        was won. A successful round counted one more visit of the root. */
    method Round(g: Game<S>, num: Numerics, s: S, depth: nat, steps: nat)
      returns (r: Result<SearchValue>, ghost leaf: S, ghost path: seq<Action>)
      requires Valid() && ValidGame(g) && ValidNumerics(num) && FitsCapacity(g, table.maxLegalMoves)
      modifies this, table
      ensures Valid()
      ensures old(table.entries).Keys <= table.entries.Keys
      ensures leaf == Replay(g, s, path)
      ensures r.Ok? ==>
        r.value.Played? && IsRollout(g, leaf, r.value.moves) &&
        r.value.value == Reward(g, Replay(g, leaf, r.value.moves), g.toMove(leaf))
      ensures r.Ok? && !g.terminal(s) ==> table.hash(s) in table.entries
      ensures r.Ok? && !g.terminal(s) && table.hash(s) in old(table.entries) ==>
        table.entries[table.hash(s)].total >= old(table.entries)[table.hash(s)].total + 1
      ensures policy.p == if r.Ok? && r.value.value == 1.0
        then AdaptWalk(old(policy.p), old(policy.p), g, s, player, 1, r.value.moves, num)
        else old(policy.p)
    {
      ghost var best, below;
      r, best, below, leaf, path := Search(g, num, s, depth, steps);
      if r.Err? {
        return;
      }
      if r.value.Bare? {
        r := Err(NotSubscriptable);
        return;
      }
      if !g.terminal(s) && table.hash(s) in old(table.entries) {
        CountedVisit(old(table.entries), table.hash(s), best, table.maxLegalMoves, below, r.value.value);
      }
      if r.value.value == 1.0 {
        Adapt(g, num, 1, player, s, r.value.moves);
      }
    }

    /** `get_action`: `nb` descents from the root, each followed by an
        adaptation of the policy to its rollout when the rollout was won
        (value 1), with player 1 as the winner and the engine's player to
        move at the root; then the first root move with the most playouts.
        A bare value at the root cannot be indexed and fails.

        `runs` lists the values the descents returned, in order, and
        `adapted` the rollouts the policy was adapted to: exactly the won
        ones among `runs`. `leaves` names the states they were played from:
        each is a complete rollout that ended with utility 1 for the player
        to move at its start. A successful call made all `nb` descents, and
        each of them counted one more visit of the root. */
    method GetAction(g: Game<S>, num: Numerics, s: S, depth: nat, steps: nat)
      returns (r: Result<Action>, ghost runs: seq<SearchValue>, ghost adapted: seq<seq<Action>>, ghost leaves: seq<S>,
               ghost runLeaves: seq<S>, ghost runPaths: seq<seq<Action>>)
      requires Valid() && ValidGame(g) && ValidNumerics(num) && FitsCapacity(g, table.maxLegalMoves)
      modifies this, table
      ensures Valid()
      ensures old(table.entries).Keys <= table.entries.Keys
      ensures |runs| <= nb && (r.Ok? ==> |runs| == nb)
      ensures forall j :: 0 <= j < |runs| ==> runs[j].Played?
      ensures RunsFrom(g, s, runs, runLeaves, runPaths)
      ensures adapted == WonRollouts(runs)
      ensures |adapted| == |leaves| <= nb
      ensures forall i :: 0 <= i < |adapted| ==>
        IsRollout(g, leaves[i], adapted[i]) && Reward(g, Replay(g, leaves[i], adapted[i]), g.toMove(leaves[i])) == 1.0
      ensures policy.p == AdaptAll(old(policy.p), g, s, player, adapted, num)
      ensures |adapted| == 0 ==> policy.p == old(policy.p)
      ensures old(policy.p).Keys <= policy.p.Keys
      ensures r.Ok? ==>
        table.hash(s) in table.entries &&
        exists k: nat :: IsMostVisited(table.entries[table.hash(s)].playouts, |g.actions(s)|, k) && r.value == g.actions(s)[k]
      ensures |g.actions(s)| == 0 ==> r.Err?
      ensures nb == 0 && table.hash(s) !in old(table.entries) ==> r.Err?
      ensures r.Ok? && !g.terminal(s) && table.hash(s) in old(table.entries) ==>
        table.entries[table.hash(s)].total >= old(table.entries)[table.hash(s)].total + nb
      ensures r.Ok? && !g.terminal(s) && table.hash(s) !in old(table.entries) ==>
        table.entries[table.hash(s)].total + 1 >= nb
    {
      runs, adapted, leaves, runLeaves, runPaths := [], [], [], [], [];
      ghost var root := table.hash(s);
      var i := 0;
      while i < nb
        invariant i <= nb && Valid()
        invariant i == 0 ==> table.entries == old(table.entries)
        invariant old(table.entries).Keys <= table.entries.Keys
        invariant |runs| == i && |adapted| <= i
        invariant Rounds(g, num, s, player, old(policy.p), policy.p, runs, adapted, leaves)
        invariant RunsFrom(g, s, runs, runLeaves, runPaths)
        invariant !g.terminal(s) && root in old(table.entries) ==>
          root in table.entries && table.entries[root].total >= old(table.entries)[root].total + i
        invariant !g.terminal(s) && root !in old(table.entries) && 0 < i ==>
          root in table.entries && table.entries[root].total + 1 >= i
      {
        ghost var leaf, path, p := s, [], policy.p;
        var res;
        res, leaf, path := Round(g, num, s, depth, steps);
        if res.Err? {
          r := Err(res.failure);
          return;
        }
        RoundsStep(g, num, s, player, old(policy.p), p, policy.p, runs, adapted, leaves, res.value, leaf);
        RunsFromStep(g, s, runs, runLeaves, runPaths, res.value, leaf, path);
        runs, runLeaves, runPaths := runs + [res.value], runLeaves + [leaf], runPaths + [path];
        if res.value.value == 1.0 {
          adapted, leaves := adapted + [res.value.moves], leaves + [leaf];
        }
        i := i + 1;
      }
      r := MostPlayedRootMove(g, s);
    }

    /** The end of `get_action`: the first root move with the most
        playouts. A root without legal moves, or without a record, fails. */
    method MostPlayedRootMove(g: Game<S>, s: S) returns (r: Result<Action>)
      requires Valid() && FitsCapacity(g, table.maxLegalMoves)
      ensures r.Ok? ==>
        table.hash(s) in table.entries &&
        exists k: nat :: IsMostVisited(table.entries[table.hash(s)].playouts, |g.actions(s)|, k) && r.value == g.actions(s)[k]
      ensures |g.actions(s)| == 0 || table.hash(s) !in table.entries ==> r.Err?
    {
      var t := table.Look(s);
      var moves := g.actions(s);
      if |moves| == 0 {
        r := Err(NoLegalMoves);
        return;
      }
      if t.None? {
        r := Err(NoRootEntry);
        return;
      }
      ghost var m, key := table.entries, table.hash(s);
      assert ValidEntries(m, table.maxLegalMoves) && key in m;
      assert EntryInv(m[key], table.maxLegalMoves);
      var k := MostVisited(t.value.playouts, |moves|);
      r := Ok(moves[k]);
    }
  }
}

=== FILE: stats.dfy ===
/** Counting helpers shared by the three engines: sums of per-move counts,
    the "first strict maximum above zero" rule of the selection loops and
    the "first most-visited move" rule of the final move choice. */
module Stats {

  function SumNat(s: seq<nat>): nat
  {
    if s == [] then 0 else s[0] + SumNat(s[1..])
  }

  /** Adding one to a single count adds one to the sum. */
  lemma {:induction false} SumNatIncrement(s: seq<nat>, i: nat)
    requires i < |s|
    ensures SumNat(s[i := s[i] + 1]) == SumNat(s) + 1
  {
    if i > 0 {
      SumNatIncrement(s[1..], i - 1);
      assert s[i := s[i] + 1][1..] == s[1..][i - 1 := s[i] + 1];
    } else {
      assert s[i := s[i] + 1][1..] == s[1..];
    }
  }

  /** No single count exceeds the sum. */
  lemma {:induction false} SumNatBound(s: seq<nat>, i: nat)
    requires i < |s|
    ensures s[i] <= SumNat(s)
  {
    if i > 0 {
      SumNatBound(s[1..], i - 1);
    }
  }

  /** A list of zero counts sums to zero. */
  lemma {:induction false} SumNatZeros(n: nat)
    ensures SumNat(seq(n, _ => 0)) == 0
  {
    if n > 0 {
      assert seq(n, _ => 0)[1..] == seq(n - 1, _ => 0);
      SumNatZeros(n - 1);
    }
  }

  /** A win sum between 0 and a positive count gives a rate in [0, 1]. */
  lemma RatioInUnit(w: real, n: real)
    requires 0.0 <= w <= n && 0.0 < n
    ensures 0.0 <= w / n <= 1.0
  {
    var q := w / n;
    assert q * n == w;
  }

  /** Between `before` and `after` a table only grew, by at most one key,
      and a key it gained holds the fresh record `init`. */
  ghost predicate TableGrows<V>(before: map<int, V>, after: map<int, V>, init: V)
  {
    && before.Keys <= after.Keys
    && |after.Keys| <= |before.Keys| + 1
    && forall h :: h in after && h !in before ==> after[h] == init
  }

  /** `best` is what the selection loops return for `scores`: starting from
      the running best 0 with value 0 and replacing it only on a strictly
      greater score, they end on the first index of the greatest score when
      some score is positive, and on index 0 otherwise. */
  ghost predicate IsSelected(scores: seq<real>, best: nat)
  {
    && best < |scores|
    && if exists j :: 0 <= j < |scores| && scores[j] > 0.0 then
         && scores[best] > 0.0
         && (forall j :: 0 <= j < |scores| ==> scores[j] <= scores[best])
         && (forall j :: 0 <= j < best ==> scores[j] < scores[best])
       else
         best == 0
  }

  /** When no score exceeds `top` and index `k` is the first to reach it,
      with `top` positive, the selection picks `k`. */
  lemma FirstTopSelected(scores: seq<real>, top: real, k: nat, best: nat)
    requires 0.0 < top && k < |scores| && scores[k] == top
    requires forall j :: 0 <= j < |scores| ==> scores[j] <= top
    requires forall j :: 0 <= j < k ==> scores[j] < top
    requires IsSelected(scores, best)
    ensures best == k
  {
    assert scores[k] > 0.0;
    assert scores[best] >= scores[k];
  }

  /** The loop of the selection step, on precomputed scores. */
  method SelectFirstBest(scores: seq<real>) returns (best: nat)
    requires |scores| > 0
    ensures IsSelected(scores, best)
  {
    var bestValue := 0.0;
    best := 0;
    for i := 0 to |scores|
      invariant best < |scores| && 0.0 <= bestValue
      invariant bestValue > 0.0 ==> best < i && scores[best] == bestValue
      invariant bestValue == 0.0 ==> best == 0
      invariant forall j :: 0 <= j < i ==> scores[j] <= bestValue
      invariant forall j :: 0 <= j < best ==> scores[j] < bestValue
    {
      if scores[i] > bestValue {
        bestValue := scores[i];
        best := i;
      }
    }
  }

  /** `k` is the first of the first `n` counts that no other count exceeds. */
  ghost predicate IsMostVisited(counts: seq<nat>, n: nat, k: nat)
  {
    && k < n <= |counts|
    && (forall j :: 0 <= j < n ==> counts[j] <= counts[k])
    && (forall j :: 0 <= j < k ==> counts[j] < counts[k])
  }

  /** The final move choice of every engine: scan the root's playout counts
      of the first `n` moves, keeping the first strictly greater one. */
  method MostVisited(counts: seq<nat>, n: nat) returns (k: nat)
    requires 0 < n <= |counts|
    ensures IsMostVisited(counts, n, k)
  {
    k := 0;
    var bestValue := counts[0];
    for i := 1 to n
      invariant k < i && bestValue == counts[k]
      invariant forall j :: 0 <= j < i ==> counts[j] <= bestValue
      invariant forall j :: 0 <= j < k ==> counts[j] < bestValue
    {
      if counts[i] > bestValue {
        bestValue := counts[i];
        k := i;
      }
    }
  }
}
